=== FILE: README.md ===
# gruvi: Hub scheduling and protocol flow control, in Dafny

This project models two parts of gruvi, a Python library for cooperative
fibers on top of the libuv event loop (pyuv):

- **The Hub** (`gruvi/hub.py`), the per-thread scheduler fiber. Everything runs
  on one thread and control moves only at explicit switches, so the Hub is a
  record — the callback FIFO `_callbacks`, the atomic-section stack `_atomic`,
  its fiber and parent, the timer and signal watchers it has armed — and each
  Hub operation is a pure transition on it (`scheduler.dfy`, module
  `Scheduler`). The `@switchpoint` guard is a higher-order function that looks
  up the Hub, refuses to run from the Hub or inside an atomic section, and
  otherwise delegates. The docstring rewrite done by `switchpoint` is in
  `docmarker.dfy` (module `DocMarker`).
- **Protocol rules** (`gruvi/protocols.py`): admission of new connections
  under `max_connections`, what closing a transport does, write-buffer
  accounting with its threshold notifications, `_flush`, read-side
  back-pressure, the close decision after a read, FIFO parsing and the
  dispatcher's termination rules (`protocols.dfy`, module `Protocols`). A
  transport is a record of the attributes gruvi hangs on it (`_eof`, `_error`,
  `_write_buffer`, the parser, the dispatch queue, the dispatcher) plus what
  the reactor holds for it: whether it is reading, the writes whose completion
  callbacks are outstanding, and whether a close was requested.

`common.dfy` holds `Option`, `Result` and `Step`; a `Step` pairs the state an
operation leaves with the exception it raised, because Python keeps mutations
made before a `raise`.

What the reactor, the fibers package and user code do is passed in as data:
the fiber currently running, what each queued callback enqueues and whether it
raises, what one poll of the loop queues and whether handles remain active,
how a suspended fiber is resumed, the statuses of write completions, what the
parser's `feed` produces and whether `is_partial()` holds, and which messages
make the handler raise.

The code and its documentation disagree in one place: the docstring of
`assert_no_switchpoints` (gruvi/hub.py:84-85) says a switchpoint called inside
the block raises `AssertionError`, but the guard (gruvi/hub.py:36-37) raises
`RuntimeError`. The model follows the code: `Scheduler.Switchpoint` fails with
`SwitchpointInAtomic`, whose class (`Scheduler.ClassOf`) is `RuntimeError`.
Only the two `assert` statements of `__exit__` give `AssertionError`.

`PARSE_ERROR` is bound twice in the `errno` class (gruvi/protocols.py:30 and
38); the later value, 10, is the one in effect and the one modelled.

In `_on_transport_readable` the variable `error` still holds the false value
it was called with (`None` or 0) when data arrived and `feed` did not raise.
The model keeps it as `Errno(0)`, which is false: if EOF had already been
seen, the close that follows is requested with that false value, and the
close callback treats it as no error.

`_write` and `_flush` are switchpoints (gruvi/protocols.py:169 and 203):
`Protocols.GuardedWrite` and `Protocols.GuardedFlush` put them behind
`Scheduler.Switchpoint`, so called from the Hub or inside
`assert_no_switchpoints` they raise RuntimeError before the transport is
touched.

## Model

| member | source | states |
|---|---|---|
| `Scheduler.NewHub` | gruvi/hub.py:135-141 | `Hub()` fails with the root-fiber error exactly when the current fiber has a parent; otherwise the new Hub takes the next fresh fiber id, its parent is the caller, and it starts with an empty callback queue, atomic stack and watcher set, no stop requests, nothing run and nothing logged |
| `Scheduler.Get` | gruvi/hub.py:157-161 | returns the stored Hub untouched when there is one; otherwise creates it (failing only when not in a root fiber) and stores it in the thread cell; the Hub created on first use is exactly the fresh one `Hub()` makes |
| `Scheduler.GetIsSingleton` | gruvi/hub.py:150-161 | once `Hub.get` has succeeded, every later call returns the same Hub and changes nothing |
| `Scheduler.RunCallback` | gruvi/hub.py:226-234 | the entry is appended at the tail of the queue, one loop stop is requested, nothing else changes |
| `Scheduler.Enqueue` | gruvi/hub.py:229-234 | a series of `run_callback` calls leaves the queue in call order after the existing entries, with one stop request per call |
| `Scheduler.Pass` | gruvi/hub.py:219-224 | after k iterations of the drain loop exactly the first k entries have run, in order; the rest keep their places ahead of everything enqueued meanwhile, and each failure is logged |
| `Scheduler.Invoke` | gruvi/hub.py:220-224 | one iteration of the drain loop: the oldest entry is popped and run, what it enqueues goes to the tail, and it is logged exactly when it raised |
| `Scheduler.RunCallbacks` | gruvi/hub.py:217-224 | a drain pass runs exactly the snapshot queued when it started, oldest first; what was enqueued during the pass is what stays queued, in enqueue order; failures are logged in order and never propagate |
| `Scheduler.FailuresCountRaises` | gruvi/hub.py:221-224 | one log record per raising callback, and every raising callback is logged |
| `Scheduler.DeferredEntriesRunNextPass` | gruvi/hub.py:217-222 | entries enqueued during one pass are exactly what the next pass runs, after the first pass's snapshot |
| `Scheduler.EnterAtomic` | gruvi/hub.py:94-96 | entering a section pushes its marker on the atomic stack and changes nothing else |
| `Scheduler.ExitAtomic` | gruvi/hub.py:98-101 | exiting asserts a non-empty stack, pops, then asserts the popped marker is this section's; success exactly when the top is this marker, and a mismatch still pops |
| `Scheduler.EnterAll` | gruvi/hub.py:94-96 | entering nested sections pushes their markers in order |
| `Scheduler.ExitInReverse` | gruvi/hub.py:98-101 | exiting the sections above a base innermost first succeeds and leaves exactly the base |
| `Scheduler.NestedSectionsRestore` | gruvi/hub.py:94-101 | nested sections exited in reverse order restore the atomic stack to what it was |
| `Scheduler.OutOfOrderExitFails` | gruvi/hub.py:98-101 | exiting any section other than the innermost raises the identity assertion |
| `Scheduler.Switchpoint` | gruvi/hub.py:33-38 | a guarded call from the Hub or inside an atomic section fails with a RuntimeError and does not run the function; otherwise the function runs once with the same arguments and its result is returned unchanged |
| `Scheduler.GuardedNoOpInAtomicSections` | gruvi/hub.py:36-37 | a guarded call fails inside any number of open sections and succeeds once they are closed in reverse order |
| `Scheduler.SwitchBack` | gruvi/hub.py:210-215 | the trigger is bound to the fiber that asked for it |
| `Scheduler.Fire` | gruvi/hub.py:211-214 | calling a trigger with args queues exactly one entry that switches to the bound fiber with that tuple |
| `Scheduler.FireAll` | gruvi/hub.py:211-214 | calling triggers keeps every entry already queued at the head and adds one entry per call |
| `Scheduler.FireAllQueuesResumes` | gruvi/hub.py:210-215 | the switches queued by a series of trigger calls are the requested ones in call order, after those already queued |
| `Scheduler.ResumesFollowTriggerOrder` | gruvi/hub.py:210-215 | once drained, fibers are resumed in the order their triggers were called, each with its own tuple, after the switches queued earlier |
| `Scheduler.Arm` | gruvi/hub.py:189-194 | a one-shot timer with the given timeout is armed exactly when a timeout is given and a SIGINT watcher exactly when `interrupt` is set, both bound to the caller, with fresh identities |
| `Scheduler.Switch` | gruvi/hub.py:187-200 | from the Hub it fails and arms nothing; otherwise on a normal resumption it returns the resume tuple and has closed every watcher it armed and nothing else; a raising resumption leaves them armed |
| `Scheduler.RunIteration` | gruvi/hub.py:166-173 | fails unless run from the Hub; drains the queue, polls with the atomic stack one deeper and restores it, and returns to the parent exactly when the loop is inactive and the queue empty; callback failures are logged in order, one stop is counted per queued entry, and the fiber, parent and armed watchers are untouched |
| `Scheduler.NoSwitchpointWhilePolling` | gruvi/hub.py:170-171 | no guarded function can run while the loop is being polled |
| `Scheduler.IdleHubReturnsToParent` | gruvi/hub.py:168-173 | an idle Hub with an empty queue returns to its parent on the first iteration with its atomic stack unchanged |
| `DocMarker.SplitLines` | gruvi/hub.py:59 | `splitlines` yields lines free of line-break characters which, joined, give the input with its line breaks removed; there is one line per terminator (`\r\n` counting once) plus one for text after the last terminator, so nothing exactly for the empty string; each line ends at a terminator: for text whose line breaks are all `\n` and which does not end in one, joining the lines with `\n` gives the text back |
| `DocMarker.LeadingSpace` | gruvi/hub.py:58 | the `takewhile(str.isspace, line)` count: every character before it is white space and the character at it, if any, is not |
| `DocMarker.Indents` | gruvi/hub.py:58-59 | the list comprehension over the lines: at most one entry per line, and empty exactly when every line is white space only |
| `DocMarker.IndentsConcat` | gruvi/hub.py:58-59 | the comprehension works line by line: the list for joined blocks of lines is the blocks' lists joined |
| `DocMarker.IndentsOfOneLine` | gruvi/hub.py:58-59 | a line contributes its leading white space width exactly when it is non-empty and not all white space |
| `DocMarker.LeadingSpaceFindsText` | gruvi/hub.py:58-59 | a line has leading white space shorter than itself exactly when it is kept by the `not line.isspace()` filter |
| `DocMarker.Indent` | gruvi/hub.py:58-60 | the marker indentation is 0 without text lines, the one text line's indentation when there is one, and otherwise the least indentation among the text lines after the first |
| `DocMarker.MarkDoc` | gruvi/hub.py:55-61 | the result always ends with the marker line and starts with the original docstring; a marked docstring is kept as is, any other gets a blank line and the indented marker appended |
| `DocMarker.AppendMarker` | gruvi/hub.py:61 | the docstring gets a blank line and the marker indented by the given width appended, and nothing else changes |
| `DocMarker.MarkDocIdempotent` | gruvi/hub.py:56-61 | marking twice gives the same docstring as marking once |
| `Protocols.InitTransport` | gruvi/protocols.py:145-152 | initialising clears EOF and error, empties the write buffer and the event set, starts reading, and gives a fresh parser, an empty queue and no dispatcher |
| `Protocols.Requested` | gruvi/protocols.py:154-164 | a close request on an open handle registers the callback with its error; on a handle already closing or closed it changes nothing |
| `Protocols.CloseTransport` | gruvi/protocols.py:154-164 | only the first close registers a callback, which will see that close's error; a close on a transport already closing or closed returns it unchanged; nothing but the close state changes |
| `Protocols.SecondCloseKeepsFirstError` | gruvi/protocols.py:154-164 | two closes in a row leave the callback of the first, with the first close's error |
| `Protocols.NewConnection` | gruvi/protocols.py:129-143 | a listen error creates no client; otherwise the client is added to the client set and is closed with SERVER_BUSY exactly when the set has reached `max_connections`, else initialised; a dropped client is the accepted transport with only the close requested, an admitted one the accepted transport just initialised and reading |
| `Protocols.OnTransportClosed` | gruvi/protocols.py:156-163 | after the close callback the transport is out of the client set; its error is set and HandleError notified exactly when the close carried a true error and the transport was initialised; the handle is then closed, so no later close registers another callback |
| `Protocols.NewConnectionKeepsLimit` | gruvi/protocols.py:136-143 | accepting a connection keeps the number of served clients below `max_connections` |
| `Protocols.ClosingKeepsLimit` | gruvi/protocols.py:156-159 | a close callback keeps the server's bookkeeping consistent and the served count below the limit |
| `Protocols.Drained` | gruvi/protocols.py:183-188 | BufferBelowThreshold is sent exactly on a downward crossing of `max_buffer_size`, BufferEmpty exactly when the buffer reaches 0, and never HandleError |
| `Protocols.OnWriteComplete` | gruvi/protocols.py:177-188 | a failed write stores the error, notifies HandleError and leaves the buffer; a successful one takes exactly its bytes off the buffer and notifies the crossings |
| `Protocols.CompletionKeepsAccounting` | gruvi/protocols.py:177-192 | the write buffer equals the bytes of outstanding writes unless an error is stored, and each completion keeps that so |
| `Protocols.EmptyExactlyWhenNothingPending` | gruvi/protocols.py:183-188 | with no error stored, a successful completion notifies BufferEmpty exactly when it completes the last outstanding write |
| `Protocols.CompleteAll` | gruvi/protocols.py:177-188 | completions delivered in write order keep the accounting, never clear a stored error, and when all succeed take exactly the completed bytes off the buffer |
| `Protocols.Write` | gruvi/protocols.py:170-195 | empty data returns 0 and changes nothing; a stored error is raised; otherwise the buffer grows by `len(data)` and the write is issued; when that takes the buffer over `max_buffer_size`, the wait completes the oldest writes (the new one last), the outstanding writes are what remains and, if all succeed, their bytes are taken off the buffer; `len(data)` is returned exactly when no error is stored after the wait, and when every completion during the wait succeeds no error is stored and `len(data)` is returned; nothing but the buffer, the outstanding writes, the error and the notifications changes |
| `Protocols.Issue` | gruvi/protocols.py:189-190 | counting a write in `_write_buffer` and issuing it keeps the link between the buffer and the outstanding writes |
| `Protocols.GuardedWrite` | gruvi/protocols.py:169-195 | `_write` as a switchpoint: from the Hub or inside an atomic section it raises RuntimeError without running; otherwise it is `_write` unchanged |
| `Protocols.Flush` | gruvi/protocols.py:203-211 | an empty buffer returns at once even with an error stored; otherwise it raises exactly when an error is stored after the wait; with no error stored and every completion during the wait successful it returns normally; nothing but the buffer, the outstanding writes, the error and the notifications changes |
| `Protocols.GuardedFlush` | gruvi/protocols.py:203-211 | `_flush` as a switchpoint: from the Hub or inside an atomic section it raises RuntimeError without running; otherwise it is `_flush` unchanged |
| `Protocols.FlushDrainsBuffer` | gruvi/protocols.py:203-211 | when every outstanding write completes during the wait, `_flush` returns normally with nothing buffered |
| `Protocols.OnQueueSizeChange` | gruvi/protocols.py:285-291 | with no limit nothing changes; reading stops on an upward crossing of the limit, restarts on a downward one, and is otherwise unchanged |
| `Protocols.ReadingTracksQueueSize` | gruvi/protocols.py:285-291 | if reading was on exactly while the queue was below the limit, it still is after any size change |
| `Protocols.PopMessage` | gruvi/protocols.py:265-267 | returns the oldest parsed message and removes it, or None when there is none |
| `Protocols.PopAllIsFifo` | gruvi/protocols.py:259-267 | messages come out of the parser in the order they were put in |
| `Protocols.QueueParsed` | gruvi/protocols.py:326-335 | every parsed message moves to the dispatch queue in order, and a dispatcher exists once any message was queued |
| `Protocols.ReadError` | gruvi/protocols.py:305-324 | at EOF the error is PARSE_ERROR for a partial message and None otherwise; on data it is PARSE_ERROR exactly when `feed` raised |
| `Protocols.ItemFor` | gruvi/protocols.py:343-355 | the item the dispatcher gets for an error is that exception when the error is true, and end of input (which closes without error) otherwise |
| `Protocols.Settle` | gruvi/protocols.py:336-343 | after EOF or an error the transport closes at once when no dispatcher runs or its queue is empty, and otherwise the error is queued for the dispatcher |
| `Protocols.Ingest` | gruvi/protocols.py:305-335 | EOF is recorded, data is fed, and every message left in or completed by the parser is queued in order; the error, the notifications and the write side are untouched, and reading is left to `on_queue_size_change`, which is not composed here |
| `Protocols.OnReadable` | gruvi/protocols.py:303-343 | a read error other than EOF requests the close at once (a transport already closing keeps its first error) and dispatches nothing; otherwise every parsed message is queued in order and the transport then requests the close, or hands the error to the dispatcher, as the EOF and error state demand; the error, the notifications and the write side are untouched, and reading is left to `on_queue_size_change`, which is not composed here |
| `Protocols.DispatchItems` | gruvi/protocols.py:345-363 | messages go to the handler in queue order up to the first end of input, exception or raising handler; it then closes with no error, that exception, or HANDLER_ERROR respectively, and otherwise blocks on the empty queue |
| `Protocols.Dispatch` | gruvi/protocols.py:345-363 | the dispatcher exits exactly when some queued item stops it, requesting the close with that item's reason (a transport already closing keeps its first error) and leaving the later items queued; it changes nothing but the queue and the close state, and reading is left to `on_queue_size_change`, which is not composed here |
| `Protocols.DataQueuesMessages` | gruvi/protocols.py:319-343 | a read of data completing some messages, with nothing parsed or queued before, queues them for a new dispatcher and leaves the transport open |
| `Protocols.EofQueuedBehind` | gruvi/protocols.py:305-343 | a clean EOF while a dispatcher has messages queued goes behind them as end of input, and the transport stays open |
| `Protocols.DispatchToEnd` | gruvi/protocols.py:345-363 | a dispatcher whose handler never raises, over messages followed by end of input, handles every message and requests the close without an error |
| `Protocols.DispatchDrains` | gruvi/protocols.py:345-363 | a dispatcher whose handler never raises, over messages only, handles them all and blocks with the queue empty and the transport otherwise unchanged; reading is left to `on_queue_size_change`, which is not composed here |
| `Protocols.CleanEofDeliversEverything` | gruvi/protocols.py:303-363 | a read queues its messages for a new dispatcher; a clean EOF arriving before the dispatcher runs is queued behind them, so every message reaches the handler in order and only then does the transport close, without an error |
| `Protocols.CleanEofAfterDrainCloses` | gruvi/protocols.py:303-363 | when the dispatcher has handled every message a read queued and blocks, a clean EOF closes the transport at once, without an error |
| `Protocols.CleanEofWithNothingQueuedCloses` | gruvi/protocols.py:336-339 | a clean EOF with nothing to dispatch requests the close at once without an error |
| `Protocols.ReadErrorSkipsDispatch` | gruvi/protocols.py:314-318 | a read error requests the close with that error and leaves the queue and parser untouched |
| `Protocols.HandlerErrorAfterReadErrorKeepsReadError` | gruvi/protocols.py:314-361 | when a read error closes the transport while a message is queued, and the dispatcher then runs it and the handler raises, the close callback stores the read error, not HANDLER_ERROR, and the handle ends up closed |

## Left out

- The pyuv reactor (`Loop.run`, `Loop.stop`, timers, signals, TCP, pipes, SSL, address lookup): its effects are parameters. `loop.stop()` is counted as a stop request; one poll is described by what it queues and whether handles stay active.
- Real stack switching by the fibers package: the current fiber is a parameter, a switch into a fiber is recorded as a resume, and how a suspended fiber is resumed is a parameter.
- `threading.local` (gruvi/hub.py:133): one thread's Hub cell is modelled as an optional field.
- The code generation in `switchpoint` with `inspect` and `exec` (gruvi/hub.py:62-70): it only reproduces the signature, so the guard is a higher-order function.
- Logging: a logged callback failure is recorded, the other log calls are not.
- `_listen`, `_connect`, `_shutdown`, `_writelines` and `close` of `Protocol`: socket setup, teardown and a loop over `_write`, built on the reactor.
- `ConditionSet`, `Queue` and `Fiber` from `gruvi/fiber.py` are not part of this model: notifications are an ordered log, the queue a sequence, and the dispatcher fiber a flag. How the queue calls `on_queue_size_change` is therefore not modelled; the rule is modelled on its own.
- `Protocols.Write`: `max_buffer_size` is an integer; the `None` the class attribute may also hold is handled only by `on_queue_size_change`.
- `Protocols.Write`: the completions that arrive during the wait are a parameter; the model does not require them to include the notification that ends the wait.
- `Protocols.Flush`: as for `Write`, the completions during the wait are a parameter.
- `Protocols.Write`: during the wait only this transport's write completions happen. In the program the caller's fiber is suspended and the Hub runs: a read error or the dispatcher can close the transport, and `on_transport_closed` then stores `_error` and notifies HandleError (gruvi/protocols.py:156-163), which ends the wait; another fiber can also `_write` to the same transport, adding writes to those outstanding. The model's outstanding writes after the wait are therefore only those of a transport no one else touched meanwhile.
- `Protocols.Flush`: the same holds for the wait in `_flush`: a close or another fiber's writes during the wait are not modelled.
- The class defaults `max_connections = 1000` and `max_buffer_size = 256*1024` (gruvi/protocols.py:50-51) are not fixed: both limits are parameters, and any value the attributes are set to is covered.
- `DocMarker.SplitLines`: Python 3 `str` rules are modelled. gruvi also ran on Python 2, where a byte-string docstring splits only at `\n`, `\r` and `\r\n` and `isspace` knows only ASCII white space; those rules are not modelled.
- `Scheduler.Switch`: the Hub at resumption is the Hub at suspension apart from the caller's own watchers. While the caller is suspended the Hub really runs (gruvi/hub.py:168-173, 195): it drains the queue, including the entry that resumes the caller, polls the loop, and other fibers arm and close watchers. Those steps are modelled by `RunIteration` and the other Hub operations, not composed into `Switch`.
- `Scheduler.Switchpoint`: the wrapped function is a pure function of its arguments, so a call that runs leaves the thread as the guard found it; what the function does to the Hub is not modelled.
- `Scheduler.RunCallbacks`: a callback's effect on the Hub is only what it queues. A drained `SwitchTo` entry runs a fiber that may arm watchers or open atomic sections; the model keeps `armed` and `atomic` fixed across the pass.
- `Scheduler.RunCallbacks`: `raises` means an `Exception` subclass, which the pass catches (gruvi/hub.py:223). A `BaseException` such as `KeyboardInterrupt` or `SystemExit` would end the pass, escape `Hub.run` and leave the rest of the snapshot queued; that outcome is not modelled.
- `Protocols.OnReadable`: `_dispatch_fast_path` is the base class's, which never claims a message, and messages are objects that are true and are not exceptions.
- `Protocols.Settle`: a dispatcher fiber object is taken to be true once it exists.
- `Protocols.Dispatch`: only the loop over items already queued is modelled; a blocked dispatcher continues when the next reading step queues more.
- `Protocols.CloseTransport`: a close on a handle that is already closing or closed is taken to change nothing, so the first close's callback and error stand. pyuv does not re-register the callback for such a handle, and gruvi's own `close` checks `closed` first (gruvi/protocols.py:241, 245). Whether pyuv raises on such a call is not modelled.
- `Protocols.Ingest`: every `_queue.put` (gruvi/protocols.py:335) goes through the queue's `on_queue_size_change` hook (gruvi/protocols.py:285-292), which may stop reading. The model keeps `reading` fixed in this step.
- `Protocols.OnReadable`: the puts of messages and of the error (gruvi/protocols.py:335, 343) go through `on_queue_size_change` (gruvi/protocols.py:285-292), which may stop reading. The model keeps `reading` fixed in this step, and `OnQueueSizeChange` is not composed into it.
- `Protocols.Dispatch`: every `_queue.get` (gruvi/protocols.py:349) goes through `on_queue_size_change` (gruvi/protocols.py:285-292), which may restart reading. The model keeps `reading` fixed across the loop.
- `Protocols.DispatchDrains`: for the same reason as `Dispatch`, "otherwise unchanged" includes `reading`, which the program may have restarted while the queue drained.
- `HttpParser`, `HttpServer` and `HttpClient` (`gruvi/http.py`) are not part of this model.

=== FILE: common.dfy ===
/** Small failure-carrying datatypes shared by the scheduler and protocol models. */
module Common {

  /** A value that may be absent (Python's `None`). */
  datatype Option<+T> = None | Some(value: T)

  /** Either a value or the exception an operation raised. */
  datatype Result<+T, +E> = Ok(value: T) | Err(error: E)

  /** The state an operation leaves behind together with the exception it
      raised, if any: Python mutations made before a `raise` are kept. */
  datatype Step<+S, +E> = Step(state: S, raised: Option<E>)
}

=== FILE: docmarker.dfy ===
/** The docstring rewrite done by `switchpoint` in gruvi/hub.py: the wrapper
    gets the wrapped function's docstring with a marker line appended,
    indented like the docstring's body. Strings follow Python 3 `str`
    rules for `splitlines` and `isspace`. */
module DocMarker {
  import opened Common

  /** The line that marks a docstring as a switchpoint's. */
  const Marker: string := "*This method is a switchpoint.*\n"

  predicate EndsWith(s: string, suffix: string)
  {
    |suffix| <= |s| && s[|s| - |suffix|..] == suffix
  }

  /** Python 3 `str.isspace` on one character. */
  predicate IsSpace(c: char)
  {
    || c == ' '
    || '\t' <= c <= '\r'
    || '\U{1C}' <= c <= '\U{1F}'
    || c == '\U{85}' || c == '\U{A0}' || c == '\U{1680}'
    || '\U{2000}' <= c <= '\U{200A}'
    || c == '\U{2028}' || c == '\U{2029}' || c == '\U{202F}' || c == '\U{205F}' || c == '\U{3000}'
  }

  /** The characters Python 3 `str.splitlines` breaks lines at. */
  predicate IsLineBreak(c: char)
  {
    || '\n' <= c <= '\r'
    || '\U{1C}' <= c <= '\U{1E}'
    || c == '\U{85}' || c == '\U{2028}' || c == '\U{2029}'
  }

  /** The index of the first line break of `s`, or `|s|` when there is none. */
  function LineEnd(s: string): (k: nat)
    ensures k <= |s|
    ensures forall i | 0 <= i < k :: !IsLineBreak(s[i])
    ensures k < |s| ==> IsLineBreak(s[k])
  {
    if s == [] || IsLineBreak(s[0]) then 0 else 1 + LineEnd(s[1..])
  }

  /** `s` with every line-break character removed. */
  function Unbroken(s: string): (r: string)
    ensures |r| <= |s|
  {
    if s == [] then [] else (if IsLineBreak(s[0]) then [] else [s[0]]) + Unbroken(s[1..])
  }

  /** The lines joined back together without separators. */
  function Concat(lines: seq<string>): string
  {
    if lines == [] then [] else lines[0] + Concat(lines[1..])
  }

  /** The number of line terminators in `s`, "\r\n" counting once. */
  function Terminators(s: string): nat
  {
    if s == [] then 0
    else if s[0] == '\r' && |s| > 1 && s[1] == '\n' then 1 + Terminators(s[2..])
    else (if IsLineBreak(s[0]) then 1 else 0) + Terminators(s[1..])
  }

  lemma {:induction false} UnbrokenAppend(a: string, b: string)
    ensures Unbroken(a + b) == Unbroken(a) + Unbroken(b)
    decreases |a|
  {
    if a == [] {
      assert a + b == b;
    } else {
      assert (a + b)[0] == a[0];
      assert (a + b)[1..] == a[1..] + b;
      UnbrokenAppend(a[1..], b);
    }
  }

  /** A stretch without line breaks survives `Unbroken` whole and holds no
      terminator. */
  lemma {:induction false} PlainText(s: string)
    requires forall i | 0 <= i < |s| :: !IsLineBreak(s[i])
    ensures Unbroken(s) == s
    ensures Terminators(s) == 0
    decreases |s|
  {
    if s != [] {
      PlainText(s[1..]);
    }
  }

  /** Skipping a prefix without line breaks leaves the terminator count alone. */
  lemma {:induction false} TerminatorsSkipPlain(s: string, k: nat)
    requires k <= |s|
    requires forall i | 0 <= i < k :: !IsLineBreak(s[i])
    ensures Terminators(s) == Terminators(s[k..])
    decreases k
  {
    if k > 0 {
      assert s[1..][k - 1..] == s[k..];
      TerminatorsSkipPlain(s[1..], k - 1);
    }
  }

  /** Cutting `s` after its first line and that line's terminator. */
  lemma {:induction false} SplitStep(s: string, k: nat, width: nat)
    requires k < |s| && k == LineEnd(s)
    requires width == (if s[k] == '\r' && k + 1 < |s| && s[k + 1] == '\n' then 2 else 1)
    ensures Unbroken(s) == s[..k] + Unbroken(s[k + width..])
    ensures Terminators(s) == 1 + Terminators(s[k + width..])
    ensures s[k + width..] != [] ==> s[|s| - 1] == s[k + width..][|s[k + width..]| - 1]
    ensures s[k + width..] == [] ==> IsLineBreak(s[|s| - 1])
  {
    assert Unbroken(s) == s[..k] + Unbroken(s[k + width..]) by {
      assert width == 2 ==> IsLineBreak(s[k + 1]);
      UnbrokenStep(s, k, width);
    }
    assert Terminators(s) == 1 + Terminators(s[k + width..]) by {
      TerminatorsSkipPlain(s, k);
      TerminatorStep(s[k..], width);
      assert s[k..][width..] == s[k + width..];
    }
  }

  lemma {:induction false} UnbrokenStep(s: string, k: nat, width: nat)
    requires k + width <= |s|
    requires forall i | 0 <= i < k :: !IsLineBreak(s[i])
    requires forall i | k <= i < k + width :: IsLineBreak(s[i])
    ensures Unbroken(s) == s[..k] + Unbroken(s[k + width..])
  {
    var text, brk, rest := s[..k], s[k..k + width], s[k + width..];
    assert forall i | 0 <= i < |text| :: !IsLineBreak(text[i]);
    assert forall i | 0 <= i < |brk| :: IsLineBreak(brk[i]);
    assert s == text + (brk + rest);
    DropBreaks(text, brk, rest);
  }

  /** Text, then line breaks, then anything: the breaks vanish. */
  lemma {:induction false} DropBreaks(text: string, brk: string, rest: string)
    requires forall i | 0 <= i < |text| :: !IsLineBreak(text[i])
    requires forall i | 0 <= i < |brk| :: IsLineBreak(brk[i])
    ensures Unbroken(text + (brk + rest)) == text + Unbroken(rest)
  {
    PlainText(text);
    AllBreaks(brk);
    UnbrokenAppend(text, brk + rest);
    UnbrokenAppend(brk, rest);
  }

  /** A run of line breaks vanishes under `Unbroken`. */
  lemma {:induction false} AllBreaks(s: string)
    requires forall i | 0 <= i < |s| :: IsLineBreak(s[i])
    ensures Unbroken(s) == []
    decreases |s|
  {
    if s != [] {
      AllBreaks(s[1..]);
    }
  }

  /** A string starting with a line break loses exactly one terminator
      when that terminator is cut off. */
  lemma TerminatorStep(s: string, width: nat)
    requires s != [] && IsLineBreak(s[0])
    requires width == (if s[0] == '\r' && 1 < |s| && s[1] == '\n' then 2 else 1)
    ensures Terminators(s) == 1 + Terminators(s[width..])
  {
  }

  /** `s.splitlines()`: the lines of `s` without their terminators, where
      "\r\n" ends one line and a final terminator opens no empty line.
      Joined, the lines give back `s` without its line breaks; there is one
      line per terminator, plus one for text after the last terminator. Where
      the lines break: when every line break is "\n" and `s` does not end in
      one, joining the lines with "\n" gives `s` back. */
  function SplitLines(s: string): (lines: seq<string>)
    ensures forall i, j | 0 <= i < |lines| && 0 <= j < |lines[i]| :: !IsLineBreak(lines[i][j])
    ensures s == [] <==> lines == []
    ensures Concat(lines) == Unbroken(s)
    ensures |lines| == Terminators(s) + (if s != [] && !IsLineBreak(s[|s| - 1]) then 1 else 0)
    ensures OnlyNewlines(s) && (s == [] || s[|s| - 1] != '\n') ==> Join(lines, "\n") == s
    decreases |s|
  {
    if s == [] then []
    else
      var k := LineEnd(s);
      if k == |s| then
        PlainText(s);
        assert Concat([s]) == s + Concat([]);
        [s]
      else
        var width := if s[k] == '\r' && k + 1 < |s| && s[k + 1] == '\n' then 2 else 1;
        var rest := SplitLines(s[k + width..]);
        SplitLinesStep(s, k, width, rest);
        JoinStep(s, k, width, rest);
        [s[..k]] + rest
  }

  /** The inductive step of `SplitLines`: the first line, cut at its
      terminator, followed by the lines of the rest are the lines of `s`. */
  lemma {:induction false} SplitLinesStep(s: string, k: nat, width: nat, rest: seq<string>)
    requires k < |s| && k == LineEnd(s)
    requires width == (if s[k] == '\r' && k + 1 < |s| && s[k + 1] == '\n' then 2 else 1)
    requires forall i, j | 0 <= i < |rest| && 0 <= j < |rest[i]| :: !IsLineBreak(rest[i][j])
    requires s[k + width..] == [] <==> rest == []
    requires Concat(rest) == Unbroken(s[k + width..])
    requires |rest| == Terminators(s[k + width..])
                       + (if s[k + width..] != [] && !IsLineBreak(s[k + width..][|s[k + width..]| - 1]) then 1 else 0)
    ensures var lines := [s[..k]] + rest;
            && (forall i, j | 0 <= i < |lines| && 0 <= j < |lines[i]| :: !IsLineBreak(lines[i][j]))
            && Concat(lines) == Unbroken(s)
            && |lines| == Terminators(s) + (if !IsLineBreak(s[|s| - 1]) then 1 else 0)
  {
    var lines := [s[..k]] + rest;
    SplitStep(s, k, width);
    assert lines[1..] == rest;
    assert forall i | 1 <= i < |lines| :: lines[i] == rest[i - 1];
  }

  /** `sep.join(lines)`. */
  function Join(lines: seq<string>, sep: string): string
  {
    if lines == [] then []
    else if |lines| == 1 then lines[0]
    else lines[0] + sep + Join(lines[1..], sep)
  }

  /** Every line break in `s` is "\n". */
  predicate OnlyNewlines(s: string)
  {
    forall i | 0 <= i < |s| :: IsLineBreak(s[i]) ==> s[i] == '\n'
  }

  /** The inductive step of the round trip through `Join`: when the only
      line break is "\n" and the text does not end in one, the first line,
      a "\n" and the joined rest give the text back. */
  lemma {:induction false} JoinStep(s: string, k: nat, width: nat, rest: seq<string>)
    requires k < |s| && k == LineEnd(s)
    requires width == (if s[k] == '\r' && k + 1 < |s| && s[k + 1] == '\n' then 2 else 1)
    requires s[k + width..] == [] <==> rest == []
    requires OnlyNewlines(s[k + width..]) && (s[k + width..] == [] || s[k + width..][|s[k + width..]| - 1] != '\n')
             ==> Join(rest, "\n") == s[k + width..]
    ensures OnlyNewlines(s) && s[|s| - 1] != '\n' ==> Join([s[..k]] + rest, "\n") == s
  {
    if OnlyNewlines(s) && s[|s| - 1] != '\n' {
      NewlineTail(s, k);
      assert width == 1;
      JoinCons(s[..k], rest, "\n");
      Reassemble(s, k);
    }
  }

  /** What follows the first "\n" of text that keeps to "\n" and does not
      end in one keeps to "\n", does not end in one, and is not empty. */
  lemma {:induction false} NewlineTail(s: string, k: nat)
    requires OnlyNewlines(s)
    requires s != [] && s[|s| - 1] != '\n'
    requires k < |s| && IsLineBreak(s[k])
    ensures s[k] == '\n'
    ensures OnlyNewlines(s[k + 1..])
    ensures s[k + 1..] != [] && s[k + 1..][|s[k + 1..]| - 1] != '\n'
  {
    var rest := s[k + 1..];
    assert forall i | 0 <= i < |rest| :: rest[i] == s[k + 1 + i];
  }

  lemma {:induction false} Reassemble(s: string, k: nat)
    requires k < |s| && s[k] == '\n'
    ensures s[..k] + "\n" + s[k + 1..] == s
  {
  }

  lemma {:induction false} JoinCons(line: string, tail: seq<string>, sep: string)
    requires tail != []
    ensures Join([line] + tail, sep) == line + sep + Join(tail, sep)
  {
    assert ([line] + tail)[1..] == tail;
  }

  /** `len(list(itertools.takewhile(str.isspace, line)))`. */
  function LeadingSpace(line: string): (n: nat)
    ensures n <= |line|
    ensures forall i | 0 <= i < n :: IsSpace(line[i])
    ensures n < |line| ==> !IsSpace(line[n])
  {
    if line == [] || !IsSpace(line[0]) then 0 else 1 + LeadingSpace(line[1..])
  }

  /** A line kept by `if line and not line.isspace()`: it has a character
      that is not white space. */
  predicate HasText(line: string)
  {
    exists i | 0 <= i < |line| :: !IsSpace(line[i])
  }

  /** The leading white space width of each line that has text, in order:
      none exactly when every line is white space only. */
  function Indents(lines: seq<string>): (r: seq<nat>)
    ensures |r| <= |lines|
    ensures r == [] <==> forall j | 0 <= j < |lines| :: LeadingSpace(lines[j]) == |lines[j]|
    decreases |lines|
  {
    if lines == [] then []
    else
      var rest := Indents(lines[1..]);
      var r := (if LeadingSpace(lines[0]) < |lines[0]| then [LeadingSpace(lines[0])] else []) + rest;
      assert forall j | 1 <= j < |lines| :: lines[j] == lines[1..][j - 1];
      r
  }

  /** The indentation list of several blocks of lines is the blocks' lists
      joined: the list comprehension works line by line. */
  lemma {:induction false} IndentsConcat(a: seq<string>, b: seq<string>)
    ensures Indents(a + b) == Indents(a) + Indents(b)
    decreases |a|
  {
    if a == [] {
      assert a + b == b;
    } else {
      var t, l := a[1..], a[0];
      assert Indents(a + b) == LineIndent(l) + Indents(t + b) by {
        var ab := a + b;
        assert ab[0] == l && ab[1..] == t + b;
        IndentsCons(ab, l, t + b);
      }
      assert Indents(a) == LineIndent(l) + Indents(t) by {
        IndentsCons(a, l, t);
      }
      IndentsConcat(t, b);
      ConcatAssoc(LineIndent(l), Indents(t), Indents(b));
    }
  }

  lemma ConcatAssoc<T>(x: seq<T>, y: seq<T>, z: seq<T>)
    ensures x + (y + z) == (x + y) + z
  {
  }

  /** The indentation a single line contributes. */
  function LineIndent(l: string): seq<nat>
  {
    if LeadingSpace(l) < |l| then [LeadingSpace(l)] else []
  }

  lemma {:induction false} IndentsCons(lines: seq<string>, l: string, rest: seq<string>)
    requires lines != [] && lines[0] == l && lines[1..] == rest
    ensures Indents(lines) == LineIndent(l) + Indents(rest)
  {
  }

  /** One line contributes its indentation exactly when it has text. */
  lemma IndentsOfOneLine(l: string)
    ensures Indents([l]) == (if HasText(l) then [LeadingSpace(l)] else [])
  {
    LeadingSpaceFindsText(l);
    assert [l][1..] == [];
  }

  /** The lines `Indents` keeps are exactly the lines with text. */
  lemma LeadingSpaceFindsText(line: string)
    ensures LeadingSpace(line) < |line| <==> HasText(line)
  {
    if LeadingSpace(line) == |line| {
      assert forall i | 0 <= i < |line| :: IsSpace(line[i]);
    }
  }

  function Min(xs: seq<nat>): (m: nat)
    requires |xs| > 0
    ensures m in xs
    ensures forall i | 0 <= i < |xs| :: m <= xs[i]
  {
    if |xs| == 1 then xs[0]
    else
      var rest := Min(xs[1..]);
      assert rest in xs;
      if xs[0] <= rest then xs[0] else rest
  }

  /** The marker's indentation: the indentation of the only line with text
      when there is one, otherwise the least indentation among the lines
      with text after the first (the summary line), and 0 when there are
      none. */
  function Indent(doc: string): (n: nat)
    ensures var ind := Indents(SplitLines(doc));
            && (|ind| == 0 ==> n == 0)
            && (|ind| == 1 ==> n == ind[0])
            && (|ind| >= 2 ==> n in ind[1..] && forall i | 1 <= i < |ind| :: n <= ind[i])
  {
    var ind := Indents(SplitLines(doc));
    if |ind| == 1 then ind[0]
    else if |ind| == 0 then 0
    else
      var m := Min(ind[1..]);
      assert forall i | 1 <= i < |ind| :: ind[i] == ind[1..][i - 1];
      m
  }

  function Spaces(n: nat): (s: string)
    ensures |s| == n
    ensures forall i | 0 <= i < n :: s[i] == ' '
  {
    if n == 0 then "" else " " + Spaces(n - 1)
  }

  /** The docstring `switchpoint` gives the wrapper: `func.__doc__ or ''`,
      unchanged when it already ends with the marker, and otherwise followed
      by a blank line and the marker at the body's indentation. */
  function MarkDoc(doc: Option<string>): (r: string)
    ensures var d := if doc.Some? then doc.value else "";
            && EndsWith(r, Marker)
            && |d| <= |r| && r[..|d|] == d
            && (EndsWith(d, Marker) ==> r == d)
            && (!EndsWith(d, Marker) ==> r[|d|..] == "\n\n" + Spaces(Indent(d)) + Marker)
  {
    var d := if doc.Some? then doc.value else "";
    if EndsWith(d, Marker) then d else AppendMarker(d, Indent(d))
  }

  /** `doc + '\n\n' + ' ' * indent + marker`. */
  function AppendMarker(d: string, indent: nat): (r: string)
    ensures EndsWith(r, Marker)
    ensures |d| <= |r| && r[..|d|] == d
    ensures r[|d|..] == "\n\n" + Spaces(indent) + Marker
  {
    var tail := "\n\n" + Spaces(indent) + Marker;
    var r := d + tail;
    assert r[|r| - |Marker|..] == Marker;
    assert r[|d|..] == tail;
    r
  }

  /** Marking an already marked docstring changes nothing, so applying
      `switchpoint` twice gives the docstring one marker line. */
  lemma MarkDocIdempotent(doc: Option<string>)
    ensures MarkDoc(Some(MarkDoc(doc))) == MarkDoc(doc)
  {
  }
}

=== FILE: protocols.dfy ===
/** The connection, flow-control and close rules of gruvi/protocols.py.

    A transport is a record of the attributes `_init_transport` gives it
    (`_eof`, `_error`, `_write_buffer`, the parser, the dispatch queue, the
    dispatcher) plus what the reactor holds for it: whether it is reading,
    the sizes of the writes whose completion callbacks are outstanding, and
    whether a close has been requested. Notifications on `transport._events`
    are recorded in order. Reactor events, parser results and handler
    failures are parameters. */
module Protocols {
  import opened Common
  import Scheduler

  // The `errno` class. PARSE_ERROR is bound twice in the class body; the
  // later binding, 10, is the value in effect.
  const OK: int := 0
  const TIMEOUT: int := 1
  const PARSE_ERROR: int := 10
  const SERVER_BUSY: int := 3
  const SERVER_ERROR: int := 4
  const HANDLER_ERROR: int := 5
  const AUTH_ERROR: int := 6
  const INVALID_REQUEST: int := 7
  const MESSAGE_TOO_LARGE: int := 8
  const FRAMING_ERROR: int := 9

  /** The status libuv reports at end of input. */
  const UV_EOF: int := -4095

  type TransportId = nat

  /** A parsed message; message objects are truthy and not exceptions. */
  datatype Message = Message(id: nat)

  /** A value stored as a transport's error or passed to `_close_transport`. */
  datatype Fault =
    | ProtocolError(errno: int)   // self._exception(errno, ...)
    | TransportError(code: int)   // pyuv_exc(transport, error)
    | Errno(code: int)            // a bare errno number

  /** Python truthiness of an optional error: exceptions are true, a bare
      errno is true unless it is 0. */
  predicate Truthy(f: Option<Fault>)
  {
    f.Some? && (f.value.Errno? ==> f.value.code != 0)
  }

  /** The conditions notified on `transport._events`. */
  datatype Notice = HandleError | BufferBelowThreshold | BufferEmpty

  /** An item of the dispatch queue: a message, `None` (end of input) or an
      exception. */
  datatype QueueItem = Msg(message: Message) | EndOfInput | Failed(fault: Fault)

  /** Whether `transport.close(on_transport_closed)` has been called, and
      with which error the callback will run. */
  datatype CloseState = Open | Closing(error: Option<Fault>) | Shut

  /** `Parser._messages`: parsed messages not yet popped. */
  datatype Parser = Parser(messages: seq<Message>)

  datatype Transport = Transport(
    initialised: bool,
    eof: bool,
    error: Option<Fault>,
    notices: seq<Notice>,
    writeBuffer: int,
    pending: seq<nat>,
    reading: bool,
    parser: Parser,
    queue: seq<QueueItem>,
    dispatcher: bool,
    close: CloseState)

  /** A client transport just accepted: `_init_transport` has not run. */
  const Accepted: Transport := Transport(false, false, None, [], 0, [], false, Parser([]), [], false, Open)

  /** `RequestResponseProtocol._init_transport` (with `Protocol._init_transport`):
      no EOF, no error, an empty write buffer, a fresh parser and queue, no
      dispatcher, and reading started. */
  function InitTransport(t: Transport): (r: Transport)
    ensures r.initialised && r.reading && !r.eof && r.error.None? && r.writeBuffer == 0
    ensures r.notices == [] && r.parser.messages == [] && r.queue == [] && !r.dispatcher
    ensures r.pending == t.pending && r.close == t.close
  {
    t.(initialised := true, eof := false, error := None, notices := [], writeBuffer := 0,
       reading := true, parser := Parser([]), queue := [], dispatcher := false)
  }

  /** The close state after a close is requested with `error`: only an
      open handle starts closing; on a handle already closing or closed the
      first close's callback, and the error it captured, stand. */
  function Requested(c: CloseState, error: Option<Fault>): (r: CloseState)
    ensures c.Open? ==> r == Closing(error)
    ensures !c.Open? ==> r == c
  {
    if c.Open? then Closing(error) else c
  }

  /** `_close_transport(transport, error)`: request the close; the reactor
      calls `on_transport_closed` with this error later. Each call makes its
      own callback capturing its own `error`, and only the first close of a
      handle registers one, so a later close changes nothing. */
  function CloseTransport(t: Transport, error: Option<Fault>): (r: Transport)
    ensures t.close.Open? ==> r.close == Closing(error)
    ensures !t.close.Open? ==> r == t
    ensures r.(close := t.close) == t
  {
    t.(close := Requested(t.close, error))
  }

  /** A second close keeps the error of the first: the close callback of
      a transport closed twice sees the error of the first close. */
  lemma SecondCloseKeepsFirstError(t: Transport, first: Option<Fault>, second: Option<Fault>)
    requires t.close == Open
    ensures CloseTransport(CloseTransport(t, first), second).close == Closing(first)
  {
  }

  // ---------------------------------------------------------------------
  // Connections
  // ---------------------------------------------------------------------

  /** A listening protocol: its `_clients` and every transport it made. */
  datatype Server = Server(
    clients: set<TransportId>,
    transports: map<TransportId, Transport>,
    nextId: TransportId,
    maxConnections: int)

  predicate ServerValid(s: Server)
  {
    && s.clients <= s.transports.Keys
    && (forall id | id in s.transports :: id < s.nextId)
  }

  /** The clients being served: those whose transport was initialised. */
  function Served(s: Server): set<TransportId>
  {
    set id | id in s.clients && id in s.transports && s.transports[id].initialised
  }

  /** `Protocol._on_new_connection(transport, error)`: on a listen error
      nothing happens; otherwise a new client is accepted and added to
      `_clients`, then closed with SERVER_BUSY when `_clients` has reached
      `max_connections`, and initialised otherwise. */
  function NewConnection(s: Server, error: int): (r: Server)
    ensures error != 0 ==> r == s
    ensures error == 0 ==>
              && r.clients == s.clients + {s.nextId}
              && r.nextId == s.nextId + 1
              && r.transports.Keys == s.transports.Keys + {s.nextId}
              && (forall id | id in s.transports && id != s.nextId :: r.transports[id] == s.transports[id])
    ensures error == 0 && ServerValid(s) ==>
              && (r.transports[s.nextId].close == Closing(Some(Errno(SERVER_BUSY))) <==>
                    |s.clients| + 1 >= s.maxConnections)
              && (r.transports[s.nextId].initialised <==> |s.clients| + 1 < s.maxConnections)
    ensures error == 0 && ServerValid(s) ==>
              var client := r.transports[s.nextId];
              if |s.clients| + 1 >= s.maxConnections
              then client == Accepted.(close := Closing(Some(Errno(SERVER_BUSY))))
              else client == Accepted.(initialised := true, reading := true)
    ensures ServerValid(s) ==> ServerValid(r)
  {
    if error != 0 then s
    else
      var id := s.nextId;
      var clients := s.clients + {id};
      var client :=
        if |clients| >= s.maxConnections then CloseTransport(Accepted, Some(Errno(SERVER_BUSY)))
        else InitTransport(Accepted);
      s.(clients := clients, transports := s.transports[id := client], nextId := id + 1)
  }

  /** `on_transport_closed`, the callback `_close_transport` gives the
      reactor: the transport leaves `_clients`; its error is set and
      HandleError notified only when the close carried a (true) error and
      the transport had been initialised. The handle is closed afterwards,
      so the callback runs once. */
  function OnTransportClosed(s: Server, id: TransportId): (r: Server)
    requires id in s.transports && s.transports[id].close.Closing?
    ensures r.clients == s.clients - {id}
    ensures r.transports.Keys == s.transports.Keys && r.nextId == s.nextId
    ensures forall other | other in s.transports && other != id :: r.transports[other] == s.transports[other]
    ensures var t := s.transports[id];
            var err := t.close.error;
            if Truthy(err) && t.initialised
            then r.transports[id] == t.(error := err, notices := t.notices + [HandleError], close := Shut)
            else r.transports[id] == t.(close := Shut)
  {
    var t := s.transports[id];
    var err := t.close.error;
    var t' := if Truthy(err) && t.initialised then t.(error := err, notices := t.notices + [HandleError], close := Shut)
              else t.(close := Shut);
    s.(clients := s.clients - {id}, transports := s.transports[id := t'])
  }

  /** Because the new client counts itself, at most `max_connections - 1`
      clients are ever served at once. */
  predicate ServedBelowLimit(s: Server)
  {
    Served(s) == {} || |Served(s)| < s.maxConnections
  }

  lemma NewConnectionKeepsLimit(s: Server, error: int)
    requires ServerValid(s) && ServedBelowLimit(s)
    ensures ServedBelowLimit(NewConnection(s, error))
  {
    var r := NewConnection(s, error);
    if error == 0 {
      var id := s.nextId;
      if r.transports[id].initialised {
        SubsetSize(Served(r), r.clients);
      } else {
        assert Served(r) == Served(s);
      }
    }
  }

  lemma {:induction false} SubsetSize<T>(a: set<T>, b: set<T>)
    requires a <= b
    ensures |a| <= |b|
    decreases |a|
  {
    if a != {} {
      var x :| x in a;
      SubsetSize(a - {x}, b - {x});
    }
  }

  lemma ClosingKeepsLimit(s: Server, id: TransportId)
    requires id in s.transports && s.transports[id].close.Closing?
    requires ServerValid(s) && ServedBelowLimit(s)
    ensures ServerValid(OnTransportClosed(s, id))
    ensures ServedBelowLimit(OnTransportClosed(s, id))
  {
    var r := OnTransportClosed(s, id);
    assert Served(r) == Served(s) - {id};
    SubsetSize(Served(r), Served(s));
  }

  // ---------------------------------------------------------------------
  // Writing
  // ---------------------------------------------------------------------

  function Sum(xs: seq<nat>): nat
  {
    if xs == [] then 0 else xs[0] + Sum(xs[1..])
  }

  /** `_write_buffer` counts the bytes of the outstanding writes, except
      bytes of writes that failed, which stay counted once an error is set. */
  predicate WriteAccounting(t: Transport)
  {
    && (forall i | 0 <= i < |t.pending| :: t.pending[i] > 0)
    && t.writeBuffer >= Sum(t.pending)
    && (t.writeBuffer != Sum(t.pending) ==> Truthy(t.error))
  }

  /** The notices a step added. */
  function NewNotices(before: Transport, after: Transport): seq<Notice>
    requires |before.notices| <= |after.notices|
  {
    after.notices[|before.notices|..]
  }

  /** The notices a successful write completion sends when `_write_buffer`
      goes from `before` to `after` bytes. */
  function Drained(before: int, after: int, maxBuffer: int): (n: seq<Notice>)
    ensures HandleError !in n
    ensures BufferBelowThreshold in n <==> after < maxBuffer <= before
    ensures BufferEmpty in n <==> after == 0
  {
    (if after < maxBuffer <= before then [BufferBelowThreshold] else [])
    + (if after == 0 then [BufferEmpty] else [])
  }

  /** `on_write_complete` for the oldest outstanding write (libuv completes
      writes in order). A failure stores the error and notifies HandleError,
      leaving `_write_buffer` alone; a success takes the write's bytes off
      `_write_buffer`, notifies BufferBelowThreshold when that crosses
      `max_buffer_size` downwards and BufferEmpty when it reaches 0. */
  function OnWriteComplete(t: Transport, status: int, maxBuffer: int): (r: Transport)
    requires |t.pending| > 0
    ensures r.pending == t.pending[1..]
    ensures status != 0 ==>
              && r.writeBuffer == t.writeBuffer
              && r.error == Some(TransportError(status))
              && r.notices == t.notices + [HandleError]
    ensures status == 0 ==>
              && r.writeBuffer == t.writeBuffer - t.pending[0]
              && r.error == t.error
              && r.notices == t.notices + Drained(t.writeBuffer, r.writeBuffer, maxBuffer)
    ensures r.(pending := t.pending, writeBuffer := t.writeBuffer, error := t.error, notices := t.notices) == t
  {
    var t0 := t.(pending := t.pending[1..]);
    if status != 0 then
      t0.(error := Some(TransportError(status)), notices := t.notices + [HandleError])
    else
      var size := t.writeBuffer - t.pending[0];
      t0.(writeBuffer := size, notices := t.notices + Drained(t.writeBuffer, size, maxBuffer))
  }

  lemma CompletionKeepsAccounting(t: Transport, status: int, maxBuffer: int)
    requires |t.pending| > 0 && WriteAccounting(t)
    ensures WriteAccounting(OnWriteComplete(t, status, maxBuffer))
  {
    assert Sum(t.pending) == t.pending[0] + Sum(t.pending[1..]);
  }

  /** With no error stored, a successful completion notifies BufferEmpty
      exactly when it completes the last outstanding write. */
  lemma EmptyExactlyWhenNothingPending(t: Transport, maxBuffer: int)
    requires |t.pending| > 0 && WriteAccounting(t) && !Truthy(t.error)
    ensures BufferEmpty in NewNotices(t, OnWriteComplete(t, 0, maxBuffer)) <==> |t.pending| == 1
  {
    var r := OnWriteComplete(t, 0, maxBuffer);
    assert NewNotices(t, r) == Drained(t.writeBuffer, r.writeBuffer, maxBuffer);
    assert Sum(t.pending) == t.pending[0] + Sum(t.pending[1..]);
    if |t.pending| > 1 {
      assert Sum(t.pending[1..]) == t.pending[1] + Sum(t.pending[2..]);
    }
  }

  /** Completions delivered one after the other, oldest write first. */
  function CompleteAll(t: Transport, statuses: seq<int>, maxBuffer: int): (r: Transport)
    requires |statuses| <= |t.pending|
    ensures r.pending == t.pending[|statuses|..]
    ensures Truthy(t.error) ==> Truthy(r.error)
    ensures WriteAccounting(t) ==> WriteAccounting(r)
    ensures (forall i | 0 <= i < |statuses| :: statuses[i] == 0) ==>
              r.writeBuffer == t.writeBuffer - Sum(t.pending[..|statuses|]) && r.error == t.error
    ensures r.(pending := t.pending, writeBuffer := t.writeBuffer, error := t.error, notices := t.notices) == t
    decreases |statuses|
  {
    if statuses == [] then
      assert t.pending[..0] == [];
      t
    else
      var r := CompleteAll(OnWriteComplete(t, statuses[0], maxBuffer), statuses[1..], maxBuffer);
      CompleteStep(t, statuses, maxBuffer, r);
      r
  }

  /** The inductive step of `CompleteAll`: the first completion followed
      by the remaining ones has the effect of all of them. */
  lemma {:induction false} CompleteStep(t: Transport, statuses: seq<int>, maxBuffer: int, r: Transport)
    requires 0 < |statuses| <= |t.pending|
    requires var t1 := OnWriteComplete(t, statuses[0], maxBuffer);
      && r.pending == t1.pending[|statuses| - 1..]
      && (Truthy(t1.error) ==> Truthy(r.error))
      && (WriteAccounting(t1) ==> WriteAccounting(r))
      && ((forall i | 0 <= i < |statuses| - 1 :: statuses[1..][i] == 0) ==>
            r.writeBuffer == t1.writeBuffer - Sum(t1.pending[..|statuses| - 1]) && r.error == t1.error)
      && r.(pending := t1.pending, writeBuffer := t1.writeBuffer, error := t1.error, notices := t1.notices) == t1
    ensures r.pending == t.pending[|statuses|..]
    ensures Truthy(t.error) ==> Truthy(r.error)
    ensures WriteAccounting(t) ==> WriteAccounting(r)
    ensures (forall i | 0 <= i < |statuses| :: statuses[i] == 0) ==>
              r.writeBuffer == t.writeBuffer - Sum(t.pending[..|statuses|]) && r.error == t.error
    ensures r.(pending := t.pending, writeBuffer := t.writeBuffer, error := t.error, notices := t.notices) == t
  {
    var t1 := OnWriteComplete(t, statuses[0], maxBuffer);
    if WriteAccounting(t) { CompletionKeepsAccounting(t, statuses[0], maxBuffer); }
    assert t.pending[..|statuses|][1..] == t1.pending[..|statuses| - 1];
    assert t.pending[1..][|statuses| - 1..] == t.pending[|statuses|..];
    if forall i | 0 <= i < |statuses| :: statuses[i] == 0 {
      assert forall i | 0 <= i < |statuses| - 1 :: statuses[1..][i] == 0 by {
        forall i | 0 <= i < |statuses| - 1 ensures statuses[1..][i] == 0 {
          assert statuses[1..][i] == statuses[i + 1];
        }
      }
    }
  }

  /** The result of `Protocol._write`: the transport afterwards and the
      byte count returned or the error raised. */
  datatype WriteResult = WriteResult(transport: Transport, result: Result<nat, Fault>)

  /** `Protocol._write(transport, data)`. Empty data returns 0. A stored
      error is raised. Otherwise `_write_buffer` grows by `len(data)` and the
      write is issued; when the buffer is then above `max_buffer_size` the
      caller waits, during which the completions `during` arrive; a stored
      error is then raised, else `len(data)` is returned. */
  function Write(t: Transport, data: seq<bv8>, maxBuffer: int, during: seq<int>): (r: WriteResult)
    requires |during| <= |t.pending| + 1
    ensures |data| == 0 ==> r == WriteResult(t, Ok(0))
    ensures |data| > 0 && Truthy(t.error) ==> r == WriteResult(t, Err(t.error.value))
    ensures |data| > 0 && !Truthy(t.error) ==>
              && (r.result.Ok? <==> !Truthy(r.transport.error))
              && (r.result.Ok? ==> r.result.value == |data|)
              && (r.result.Err? ==> r.transport.error == Some(r.result.error))
    ensures |data| > 0 && !Truthy(t.error) && t.writeBuffer + |data| <= maxBuffer ==>
              r == WriteResult(t.(writeBuffer := t.writeBuffer + |data|, pending := t.pending + [|data|]), Ok(|data|))
    ensures |data| > 0 && !Truthy(t.error) && t.writeBuffer + |data| > maxBuffer ==>
              r.transport.pending == (t.pending + [|data|])[|during|..]
    ensures |data| > 0 && !Truthy(t.error) && t.writeBuffer + |data| > maxBuffer &&
            (forall i | 0 <= i < |during| :: during[i] == 0) ==>
              r.transport.writeBuffer == t.writeBuffer + |data| - Sum((t.pending + [|data|])[..|during|])
    ensures |data| > 0 && !Truthy(t.error) &&
            (forall i | 0 <= i < |during| :: during[i] == 0) ==>
              r.result == Ok(|data|) && r.transport.error == t.error
    ensures |data| > 0 && !Truthy(t.error) ==>
              r.transport.(writeBuffer := t.writeBuffer, pending := t.pending, error := t.error,
                           notices := t.notices) == t
    ensures WriteAccounting(t) ==> WriteAccounting(r.transport)
  {
    if |data| == 0 then WriteResult(t, Ok(0))
    else if Truthy(t.error) then WriteResult(t, Err(t.error.value))
    else
      var nbytes := |data|;
      var issued := Issue(t, nbytes);
      var waited := if issued.writeBuffer > maxBuffer then CompleteAll(issued, during, maxBuffer) else issued;
      if Truthy(waited.error) then WriteResult(waited, Err(waited.error.value))
      else WriteResult(waited, Ok(nbytes))
  }

  /** Counting a write of `nbytes` in `_write_buffer` and issuing it. */
  function Issue(t: Transport, nbytes: nat): (r: Transport)
    requires nbytes > 0
    ensures r == t.(writeBuffer := t.writeBuffer + nbytes, pending := t.pending + [nbytes])
    ensures WriteAccounting(t) ==> WriteAccounting(r)
  {
    var r := t.(writeBuffer := t.writeBuffer + nbytes, pending := t.pending + [nbytes]);
    assert WriteAccounting(t) ==> WriteAccounting(r) by {
      SumAppend(t.pending, nbytes);
    }
    r
  }

  lemma {:induction false} SumAppend(xs: seq<nat>, x: nat)
    ensures Sum(xs + [x]) == Sum(xs) + x
    decreases |xs|
  {
    if xs == [] {
      assert xs + [x] == [x];
    } else {
      assert (xs + [x])[1..] == xs[1..] + [x];
      SumAppend(xs[1..], x);
    }
  }

  /** The result of `Protocol._flush`: the transport afterwards and the
      error raised, if any. */
  datatype FlushResult = FlushResult(transport: Transport, raised: Option<Fault>)

  /** `Protocol._flush(transport)`. An empty write buffer returns at once,
      even when an error is stored. Otherwise the caller waits for
      BufferEmpty or HandleError unless an error is already stored (the
      completions `during` arrive meanwhile), then raises the stored error
      if there is one. */
  function Flush(t: Transport, maxBuffer: int, during: seq<int>): (r: FlushResult)
    requires |during| <= |t.pending|
    ensures t.writeBuffer == 0 ==> r == FlushResult(t, None)
    ensures t.writeBuffer != 0 && Truthy(t.error) ==> r == FlushResult(t, t.error)
    ensures t.writeBuffer != 0 ==> (r.raised.Some? <==> Truthy(r.transport.error))
    ensures r.raised.Some? ==> r.transport.error == r.raised
    ensures !Truthy(t.error) && (forall i | 0 <= i < |during| :: during[i] == 0) ==>
              r.raised.None? && r.transport.error == t.error
    ensures r.transport.(writeBuffer := t.writeBuffer, pending := t.pending, error := t.error,
                         notices := t.notices) == t
    ensures WriteAccounting(t) ==> WriteAccounting(r.transport)
  {
    if t.writeBuffer == 0 then FlushResult(t, None)
    else
      var waited := if !Truthy(t.error) then CompleteAll(t, during, maxBuffer) else t;
      if Truthy(waited.error) then FlushResult(waited, waited.error) else FlushResult(waited, None)
  }

  /** `_write` and `_flush` are switchpoints: called from the Hub or inside
      `assert_no_switchpoints`, the guard raises RuntimeError before the
      transport is touched; otherwise the call goes through unchanged. */
  function GuardedWrite(th: Scheduler.Thread, t: Transport, data: seq<bv8>, maxBuffer: int, during: seq<int>)
    : (r: (Scheduler.Thread, Result<WriteResult, Scheduler.Error>))
    requires |during| <= |t.pending| + 1
    ensures th.hub.Some? && th.current == th.hub.value.fiber ==> r == (th, Err(Scheduler.SwitchpointInHub))
    ensures th.hub.Some? && th.current != th.hub.value.fiber && |th.hub.value.atomic| > 0 ==>
              r == (th, Err(Scheduler.SwitchpointInAtomic))
    ensures th.hub.Some? && th.current != th.hub.value.fiber && th.hub.value.atomic == [] ==>
              r == (th, Ok(Write(t, data, maxBuffer, during)))
    ensures r.1.Err? ==> Scheduler.ClassOf(r.1.error) == Scheduler.RuntimeError
    ensures r.1.Ok? ==> r.1.value == Write(t, data, maxBuffer, during)
  {
    Scheduler.Switchpoint(th, (u: ()) => Ok(Write(t, data, maxBuffer, during)), ())
  }

  function GuardedFlush(th: Scheduler.Thread, t: Transport, maxBuffer: int, during: seq<int>)
    : (r: (Scheduler.Thread, Result<FlushResult, Scheduler.Error>))
    requires |during| <= |t.pending|
    ensures th.hub.Some? && th.current == th.hub.value.fiber ==> r == (th, Err(Scheduler.SwitchpointInHub))
    ensures th.hub.Some? && th.current != th.hub.value.fiber && |th.hub.value.atomic| > 0 ==>
              r == (th, Err(Scheduler.SwitchpointInAtomic))
    ensures th.hub.Some? && th.current != th.hub.value.fiber && th.hub.value.atomic == [] ==>
              r == (th, Ok(Flush(t, maxBuffer, during)))
    ensures r.1.Err? ==> Scheduler.ClassOf(r.1.error) == Scheduler.RuntimeError
    ensures r.1.Ok? ==> r.1.value == Flush(t, maxBuffer, during)
  {
    Scheduler.Switchpoint(th, (u: ()) => Ok(Flush(t, maxBuffer, during)), ())
  }

  /** When every outstanding write completes successfully during the wait,
      `_flush` returns normally with nothing left buffered. */
  lemma FlushDrainsBuffer(t: Transport, maxBuffer: int, during: seq<int>)
    requires WriteAccounting(t) && !Truthy(t.error)
    requires |during| == |t.pending| && forall i | 0 <= i < |during| :: during[i] == 0
    ensures Flush(t, maxBuffer, during).raised.None?
    ensures Flush(t, maxBuffer, during).transport.writeBuffer == 0
    ensures Flush(t, maxBuffer, during).transport.pending == []
  {
    assert t.pending[..|during|] == t.pending;
  }

  // ---------------------------------------------------------------------
  // Reading
  // ---------------------------------------------------------------------

  /** `on_queue_size_change(oldsize, newsize)`: with no `max_buffer_size`
      nothing happens; reading stops when the queue size crosses the limit
      upwards and restarts when it crosses it downwards. */
  function OnQueueSizeChange(t: Transport, maxBuffer: Option<int>, oldSize: int, newSize: int): (r: Transport)
    ensures r.(reading := t.reading) == t
    ensures maxBuffer.None? ==> r == t
    ensures maxBuffer.Some? && oldSize < maxBuffer.value <= newSize ==> !r.reading
    ensures maxBuffer.Some? && oldSize >= maxBuffer.value > newSize ==> r.reading
    ensures maxBuffer.Some? && (oldSize < maxBuffer.value <==> newSize < maxBuffer.value) ==> r.reading == t.reading
  {
    if maxBuffer.None? then t
    else if oldSize < maxBuffer.value <= newSize then t.(reading := false)
    else if oldSize >= maxBuffer.value > newSize then t.(reading := true)
    else t
  }

  /** If reading was on exactly while the queue was below the limit, it
      still is after any size change. */
  lemma ReadingTracksQueueSize(t: Transport, max: int, oldSize: int, newSize: int)
    requires t.reading == (oldSize < max)
    ensures OnQueueSizeChange(t, Some(max), oldSize, newSize).reading == (newSize < max)
  {
  }

  /** `Parser.pop_message`: the oldest parsed message, or None. */
  function PopMessage(p: Parser): (r: (Parser, Option<Message>))
    ensures p.messages == [] ==> r == (p, None)
    ensures p.messages != [] ==> r.1 == Some(p.messages[0]) && r.0.messages == p.messages[1..]
  {
    if p.messages == [] then (p, None) else (Parser(p.messages[1..]), Some(p.messages[0]))
  }

  /** Messages a parser produced, appended by `feed`. */
  function Feed(p: Parser, parsed: seq<Message>): Parser
  {
    Parser(p.messages + parsed)
  }

  /** Calling `pop_message` until it returns None. */
  function PopAll(p: Parser): (r: seq<Message>)
    decreases |p.messages|
  {
    match PopMessage(p)
    case (_, None) => []
    case (p', Some(m)) => [m] + PopAll(p')
  }

  /** Messages come out of a parser in the order they were fed in. */
  lemma {:induction false} PopAllIsFifo(p: Parser, parsed: seq<Message>)
    ensures PopAll(Feed(p, parsed)) == p.messages + parsed
    decreases |p.messages| + |parsed|
  {
    var q := Feed(p, parsed);
    if q.messages != [] {
      var (q', m) := PopMessage(q);
      if p.messages == [] {
        assert q.messages == parsed;
        PopAllIsFifo(Parser([]), parsed[1..]);
        assert Feed(Parser([]), parsed[1..]) == q';
      } else {
        PopAllIsFifo(Parser(p.messages[1..]), parsed);
        assert Feed(Parser(p.messages[1..]), parsed) == q';
      }
    } else {
      assert p.messages + parsed == [];
    }
  }

  /** The queue items for a run of messages. */
  function Items(ms: seq<Message>): (r: seq<QueueItem>)
    ensures |r| == |ms|
    ensures forall i | 0 <= i < |ms| :: r[i] == Msg(ms[i])
  {
    if ms == [] then [] else [Msg(ms[0])] + Items(ms[1..])
  }

  /** The dispatch loop of `_on_transport_readable`: pop every parsed
      message and put it on the queue (the base class has no fast path),
      starting the dispatcher before the first one. */
  function QueueParsed(t: Transport): (r: Transport)
    ensures r.parser.messages == []
    ensures r.queue == t.queue + Items(t.parser.messages)
    ensures r.dispatcher == (t.dispatcher || t.parser.messages != [])
    ensures r.(parser := t.parser, queue := t.queue, dispatcher := t.dispatcher) == t
    decreases |t.parser.messages|
  {
    var (p, m) := PopMessage(t.parser);
    if m.None? then t
    else
      var ms := t.parser.messages;
      var next := t.(parser := p, dispatcher := true, queue := t.queue + [Msg(m.value)]);
      assert Items(ms) == [Msg(ms[0])] + Items(ms[1..]);
      assert next.queue + Items(p.messages) == t.queue + Items(ms);
      QueueParsed(next)
  }

  /** What `feed` did with the data: the messages it completed and whether
      it then raised ParseError. */
  datatype FeedResult = FeedResult(parsed: seq<Message>, parseError: bool)

  /** The transport after `_on_transport_readable` and the error it settled on. */
  datatype ReadResult = ReadResult(transport: Transport, error: Option<Fault>)

  /** The queue item the dispatcher gets for an error: the exception, or
      end of input for None or 0. */
  function ItemFor(error: Option<Fault>): (item: QueueItem)
    ensures item.Failed? <==> Truthy(error)
    ensures item.Failed? ==> item.fault == error.value
  {
    if Truthy(error) then Failed(error.value) else EndOfInput
  }

  /** The end of `_on_transport_readable`: once EOF was seen or an error is
      pending, close right away when no dispatcher runs or its queue is
      empty, and otherwise queue the error for the dispatcher to close with. */
  function Settle(t: Transport, error: Option<Fault>): (r: Transport)
    ensures !(t.eof || Truthy(error)) ==> r == t
    ensures (t.eof || Truthy(error)) && (!t.dispatcher || t.queue == []) ==> r == CloseTransport(t, error)
    ensures (t.eof || Truthy(error)) && t.dispatcher && t.queue != [] ==>
              r == t.(queue := t.queue + [ItemFor(error)])
    ensures r.(queue := t.queue, close := t.close) == t
  {
    if t.eof || Truthy(error) then
      if !t.dispatcher || |t.queue| == 0 then CloseTransport(t, error)
      else t.(queue := t.queue + [ItemFor(error)])
    else t
  }

  /** The error `_on_transport_readable` holds after reading: at EOF a
      ParseError for a partial message or None; on data a ParseError when
      `feed` raised and otherwise the false value it was called with
      (`None` or 0; the model uses 0). */
  function ReadError(error: int, partial: bool, feed: FeedResult): (e: Option<Fault>)
    requires error == 0 || error == UV_EOF
    ensures Truthy(e) <==> (if error == UV_EOF then partial else feed.parseError)
    ensures Truthy(e) ==> e == Some(ProtocolError(PARSE_ERROR))
  {
    if error == UV_EOF then (if partial then Some(ProtocolError(PARSE_ERROR)) else None)
    else (if feed.parseError then Some(ProtocolError(PARSE_ERROR)) else Some(Errno(OK)))
  }

  /** The parsed messages `_on_transport_readable` has to pass on: those
      left in the parser and, when data came in, those it completed. */
  function Pending(t: Transport, error: int, feed: FeedResult): seq<Message>
  {
    t.parser.messages + (if error == 0 then feed.parsed else [])
  }

  /** `_on_transport_readable(transport, data, error)`. `partial` is what
      `is_partial()` answers at EOF, `feed` what `feed(data)` does. A read
      error other than EOF closes the transport at once. Otherwise every
      parsed message, old and new, goes to the dispatcher's queue, and then
      the transport closes or the dispatcher is told to close it. */
  function OnReadable(t: Transport, data: seq<bv8>, error: int, partial: bool, feed: FeedResult): (r: ReadResult)
    ensures error != 0 && error != UV_EOF ==>
              r == ReadResult(CloseTransport(t, Some(TransportError(error))), Some(TransportError(error)))
    ensures error == 0 || error == UV_EOF ==>
              && r.error == ReadError(error, partial, feed)
              && r.transport.eof == (t.eof || error == UV_EOF)
              && r.transport.parser.messages == []
              && r.transport.dispatcher == (t.dispatcher || Pending(t, error, feed) != [])
    ensures error == 0 || error == UV_EOF ==>
              var queued := t.queue + Items(Pending(t, error, feed));
              var closing := r.transport.eof || Truthy(r.error);
              && (!closing ==> r.transport.queue == queued && r.transport.close == t.close)
              && (closing && (!r.transport.dispatcher || queued == []) ==>
                    r.transport.queue == queued && r.transport.close == Requested(t.close, r.error))
              && (closing && r.transport.dispatcher && queued != [] ==>
                    r.transport.queue == queued + [ItemFor(r.error)] && r.transport.close == t.close)
    ensures error == 0 || error == UV_EOF ==>
              r.transport.(eof := t.eof, parser := t.parser, queue := t.queue,
                           dispatcher := t.dispatcher, close := t.close) == t
  {
    if error != UV_EOF && error != 0 then
      var fault := Some(TransportError(error));
      ReadResult(CloseTransport(t, fault), fault)
    else
      var e := ReadError(error, partial, feed);
      ReadResult(Settle(Ingest(t, error, feed), e), e)
  }

  /** The part of `_on_transport_readable` before the close decision:
      record EOF or feed the data, then move every parsed message to the
      queue. */
  function Ingest(t: Transport, error: int, feed: FeedResult): (r: Transport)
    requires error == 0 || error == UV_EOF
    ensures r.eof == (t.eof || error == UV_EOF)
    ensures r.parser.messages == []
    ensures r.queue == t.queue + Items(Pending(t, error, feed))
    ensures r.dispatcher == (t.dispatcher || Pending(t, error, feed) != [])
    ensures r.(eof := t.eof, parser := t.parser, queue := t.queue, dispatcher := t.dispatcher) == t
  {
    var fed :=
      if error == UV_EOF then t.(eof := true)
      else t.(parser := Feed(t.parser, feed.parsed));
    assert fed.parser.messages == Pending(t, error, feed);
    QueueParsed(fed)
  }

  // ---------------------------------------------------------------------
  // The dispatcher
  // ---------------------------------------------------------------------

  /** Whether the dispatcher stops at this item: at None, at an exception,
      or at a message whose handler raises. */
  predicate Stops(item: QueueItem, raises: Message -> bool)
  {
    !item.Msg? || raises(item.message)
  }

  /** The position of the first item the dispatcher stops at, or the
      length of the queue. */
  function StopAt(items: seq<QueueItem>, raises: Message -> bool): (k: nat)
    ensures k <= |items|
    ensures forall i | 0 <= i < k :: !Stops(items[i], raises)
    ensures k < |items| ==> Stops(items[k], raises)
  {
    if items == [] || Stops(items[0], raises) then 0 else 1 + StopAt(items[1..], raises)
  }

  /** The dispatcher stops before the end of the queue exactly when some
      item stops it. */
  lemma StopsSomewhere(items: seq<QueueItem>, raises: Message -> bool)
    ensures StopAt(items, raises) < |items| <==> exists i | 0 <= i < |items| :: Stops(items[i], raises)
  {
  }

  /** The close error the dispatcher uses for the item it stopped at. */
  function StopReason(item: QueueItem): Option<Fault>
  {
    match item
    case EndOfInput => None
    case Failed(f) => Some(f)
    case Msg(_) => Some(ProtocolError(HANDLER_ERROR))
  }

  /** Where the dispatcher loop ended: blocked in `Queue.get` on an empty
      queue, or returned after asking for the transport to close. */
  datatype Stop = Blocked | Closed(error: Option<Fault>)

  /** The messages the loop handed to `_dispatch_message`, the items left
      on the queue, and where it ended. */
  datatype Drain = Drain(handled: seq<Message>, rest: seq<QueueItem>, stop: Stop)

  /** The loop of `RequestResponseProtocol._dispatch` over the queued items;
      `raises` says which messages make `_dispatch_message` raise. It hands
      messages to the handler in queue order and stops at the first None
      (close without error), the first exception (close with it) or the
      first handler failure (close with HANDLER_ERROR). */
  function DispatchItems(items: seq<QueueItem>, raises: Message -> bool): (r: Drain)
    ensures r.stop.Closed? <==> StopAt(items, raises) < |items|
    ensures |r.handled| == HandledCount(items, raises)
    ensures forall i | 0 <= i < |r.handled| :: items[i] == Msg(r.handled[i])
    ensures r.stop.Closed? ==>
              var k := StopAt(items, raises);
              r.rest == items[k + 1..] && r.stop.error == StopReason(items[k])
    ensures r.stop.Blocked? ==> r.rest == []
    decreases |items|
  {
    if items == [] then Drain([], [], Blocked)
    else
      match items[0]
      case EndOfInput => Drain([], items[1..], Closed(None))
      case Failed(f) => Drain([], items[1..], Closed(Some(f)))
      case Msg(m) =>
        if raises(m) then Drain([m], items[1..], Closed(Some(ProtocolError(HANDLER_ERROR))))
        else
          var r := DispatchItems(items[1..], raises);
          DispatchStep(items, raises, r);
          Drain([m] + r.handled, r.rest, r.stop)
  }

  /** The inductive step of `DispatchItems`: after a message the handler
      takes, the loop goes on with the rest of the queue. */
  lemma {:induction false} DispatchStep(items: seq<QueueItem>, raises: Message -> bool, r: Drain)
    requires items != [] && items[0].Msg? && !raises(items[0].message)
    requires var tail := items[1..];
      && (r.stop.Closed? <==> StopAt(tail, raises) < |tail|)
      && |r.handled| == HandledCount(tail, raises)
      && (forall i | 0 <= i < |r.handled| :: tail[i] == Msg(r.handled[i]))
      && (r.stop.Closed? ==>
            var k := StopAt(tail, raises);
            r.rest == tail[k + 1..] && r.stop.error == StopReason(tail[k]))
      && (r.stop.Blocked? ==> r.rest == [])
    ensures var handled := [items[0].message] + r.handled;
      && (r.stop.Closed? <==> StopAt(items, raises) < |items|)
      && |handled| == HandledCount(items, raises)
      && (forall i | 0 <= i < |handled| :: items[i] == Msg(handled[i]))
      && (r.stop.Closed? ==>
            var k := StopAt(items, raises);
            r.rest == items[k + 1..] && r.stop.error == StopReason(items[k]))
  {
    var tail := items[1..];
    var handled := [items[0].message] + r.handled;
    assert StopAt(items, raises) == 1 + StopAt(tail, raises);
    assert HandledCount(items, raises) == 1 + HandledCount(tail, raises);
    assert forall i | 1 <= i < |handled| :: handled[i] == r.handled[i - 1] && items[i] == tail[i - 1];
    if r.stop.Closed? {
      var k := StopAt(tail, raises);
      assert items[k + 1 + 1..] == tail[k + 1..];
    }
  }

  /** How many messages the dispatcher hands to the handler: those before
      the stop, and the message it stopped at when a handler raised. */
  function HandledCount(items: seq<QueueItem>, raises: Message -> bool): nat
  {
    var k := StopAt(items, raises);
    if k < |items| && items[k].Msg? then k + 1 else k
  }

  /** The dispatcher fiber run until it blocks or exits: the queue keeps
      what it did not take, and an exit requests the close. */
  datatype DispatchResult = DispatchResult(transport: Transport, handled: seq<Message>, exited: bool)

  /** `RequestResponseProtocol._dispatch` on a transport. */
  function Dispatch(t: Transport, raises: Message -> bool): (r: DispatchResult)
    ensures r.exited <==> exists i | 0 <= i < |t.queue| :: Stops(t.queue[i], raises)
    ensures r.handled == DispatchItems(t.queue, raises).handled
    ensures r.exited ==>
              var k := StopAt(t.queue, raises);
              r.transport.close == Requested(t.close, StopReason(t.queue[k])) && r.transport.queue == t.queue[k + 1..]
    ensures !r.exited ==> r.transport.queue == [] && r.transport.close == t.close
    ensures r.transport.(queue := t.queue, close := t.close) == t
  {
    var d := DispatchItems(t.queue, raises);
    StopsSomewhere(t.queue, raises);
    if d.stop.Closed? then DispatchResult(CloseTransport(t.(queue := d.rest), d.stop.error), d.handled, true)
    else DispatchResult(t.(queue := d.rest), d.handled, false)
  }

  /** A read of data that completes `ms`, with nothing parsed or queued
      before: the messages are queued for a new dispatcher and the
      transport stays open. */
  lemma DataQueuesMessages(t: Transport, data: seq<bv8>, ms: seq<Message>)
    requires t.parser.messages == [] && t.queue == [] && !t.dispatcher
    requires !t.eof && t.close == Open && ms != []
    ensures var r := OnReadable(t, data, 0, false, FeedResult(ms, false)).transport;
            && r.queue == Items(ms) && r.dispatcher && r.parser.messages == []
            && !r.eof && r.close == Open
  {
    assert Pending(t, 0, FeedResult(ms, false)) == ms;
  }

  /** A clean EOF while a dispatcher has queued messages goes behind them
      as end of input, and the transport stays open. */
  lemma EofQueuedBehind(t: Transport, ms: seq<Message>)
    requires t.queue == Items(ms) && t.dispatcher && t.parser.messages == []
    requires t.close == Open && ms != []
    ensures var r := OnReadable(t, [], UV_EOF, false, FeedResult([], false)).transport;
            r.queue == Items(ms) + [EndOfInput] && r.close == Open
  {
    assert Pending(t, UV_EOF, FeedResult([], false)) == [];
    assert Items([]) == [];
  }

  /** A dispatcher whose handler never raises, over messages then end of
      input, handles every message and exits without an error. */
  lemma DispatchToEnd(t: Transport, ms: seq<Message>)
    requires t.queue == Items(ms) + [EndOfInput]
    ensures var d := Dispatch(t, (m: Message) => false);
            d.handled == ms && d.exited && d.transport.close == Requested(t.close, None)
  {
    var items := Items(ms) + [EndOfInput];
    var never := (m: Message) => false;
    assert StopAt(items, never) == |ms| by {
      assert forall i | 0 <= i < |ms| :: !Stops(items[i], never);
      assert Stops(items[|ms|], never);
    }
  }

  /** A clean end of input after data: the messages completed by a read
      are queued for a fresh dispatcher; when EOF arrives before the
      dispatcher has run, it is queued behind them, so every message
      reaches the handler in order and only then does the transport close,
      without an error. */
  lemma CleanEofDeliversEverything(t: Transport, data: seq<bv8>, ms: seq<Message>)
    requires t.parser.messages == [] && t.queue == [] && !t.dispatcher
    requires !t.eof && t.close == Open && ms != []
    ensures var first := OnReadable(t, data, 0, false, FeedResult(ms, false));
            var last := OnReadable(first.transport, [], UV_EOF, false, FeedResult([], false));
            var done := Dispatch(last.transport, (m: Message) => false);
            && first.transport.close == Open
            && last.transport.close == Open
            && done.handled == ms
            && done.exited
            && done.transport.close == Closing(None)
  {
    var first := OnReadable(t, data, 0, false, FeedResult(ms, false));
    DataQueuesMessages(t, data, ms);
    var last := OnReadable(first.transport, [], UV_EOF, false, FeedResult([], false));
    EofQueuedBehind(first.transport, ms);
    DispatchToEnd(last.transport, ms);
  }

  /** When the dispatcher has already handled everything a read queued and
      is blocked, a clean EOF closes the transport at once, without an
      error. */
  lemma CleanEofAfterDrainCloses(t: Transport, data: seq<bv8>, ms: seq<Message>)
    requires t.parser.messages == [] && t.queue == [] && !t.dispatcher
    requires !t.eof && t.close == Open && ms != []
    ensures var first := OnReadable(t, data, 0, false, FeedResult(ms, false));
            var drained := Dispatch(first.transport, (m: Message) => false);
            var last := OnReadable(drained.transport, [], UV_EOF, false, FeedResult([], false));
            && drained.handled == ms
            && !drained.exited
            && last.transport.close == Closing(None)
  {
    var first := OnReadable(t, data, 0, false, FeedResult(ms, false));
    DataQueuesMessages(t, data, ms);
    var drained := Dispatch(first.transport, (m: Message) => false);
    DispatchDrains(first.transport, ms);
    CleanEofWithNothingQueuedCloses(drained.transport);
  }

  /** A dispatcher whose handler never raises, over messages only, handles
      them all and blocks on the empty queue. */
  lemma DispatchDrains(t: Transport, ms: seq<Message>)
    requires t.queue == Items(ms)
    ensures var d := Dispatch(t, (m: Message) => false);
            d.handled == ms && !d.exited && d.transport == t.(queue := [])
  {
    var never := (m: Message) => false;
    assert StopAt(Items(ms), never) == |ms| by {
      assert forall i | 0 <= i < |ms| :: !Stops(Items(ms)[i], never);
    }
  }

  /** A clean end of input with nothing parsed closes at once. */
  lemma CleanEofWithNothingQueuedCloses(t: Transport)
    requires t.queue == [] && t.parser.messages == []
    ensures OnReadable(t, [], UV_EOF, false, FeedResult([], false)).transport.close == Requested(t.close, None)
  {
  }

  /** A read error closes the transport while a message is still queued;
      when the dispatcher then runs that message and the handler raises,
      its close changes nothing, so the close callback stores the read
      error and not HANDLER_ERROR. */
  lemma HandlerErrorAfterReadErrorKeepsReadError(s: Server, id: TransportId, data: seq<bv8>, error: int,
                                                 partial: bool, feed: FeedResult, raises: Message -> bool)
    requires id in s.transports
    requires var t := s.transports[id];
      t.close == Open && t.initialised && t.queue != [] && t.queue[0].Msg? && raises(t.queue[0].message)
    requires error != 0 && error != UV_EOF
    ensures var read := OnReadable(s.transports[id], data, error, partial, feed).transport;
            var d := Dispatch(read, raises);
            var closed := OnTransportClosed(s.(transports := s.transports[id := d.transport]), id);
            && d.exited
            && d.transport.close == Closing(Some(TransportError(error)))
            && closed.transports[id].error == Some(TransportError(error))
            && closed.transports[id].close == Shut
  {
    var t := s.transports[id];
    var read := OnReadable(t, data, error, partial, feed).transport;
    assert read.queue == t.queue;
    assert StopAt(read.queue, raises) == 0;
  }

  /** A read error other than EOF closes the transport and dispatches nothing. */
  lemma ReadErrorSkipsDispatch(t: Transport, data: seq<bv8>, error: int, partial: bool, feed: FeedResult)
    requires error != 0 && error != UV_EOF
    ensures var r := OnReadable(t, data, error, partial, feed).transport;
            r.queue == t.queue && r.parser == t.parser && r.close == Requested(t.close, Some(TransportError(error)))
  {
  }
}

=== FILE: scheduler.dfy ===
/** The Hub of gruvi/hub.py: the per-thread cooperative fiber scheduler,
    modelled as a sequential state machine.

    Everything runs on one thread and control only moves at explicit
    switches, so the Hub is a record (callback FIFO, atomic-section stack,
    armed watchers) and every Hub operation is a pure transition on it. The
    fiber currently running is an explicit parameter (the `fibers.current()`
    oracle); real stack switching, the pyuv reactor and user callables are
    abstract: a callable is described by what it enqueues and whether it
    raises. */
module Scheduler {
  import opened Common

  type FiberId = nat
  type Value = int
  /** Identity of one `assert_no_switchpoints` context object. */
  type Marker = nat

  /** `signal.SIGINT`, the signal `Hub.switch(interrupt=True)` watches. */
  const SIGINT: int := 2

  /** The exceptions the Hub raises, by cause. */
  datatype Error =
    | HubNotInRoot          // Hub() from a fiber that has a parent
    | RunNotInHub           // run() while the Hub is not the current fiber
    | SwitchFromHub         // Hub.switch() while the Hub is the current fiber
    | SwitchpointInHub      // a switchpoint called from the Hub
    | SwitchpointInAtomic   // a switchpoint called inside assert_no_switchpoints
    | AtomicUnderflow       // __exit__ with an empty atomic stack
    | AtomicMismatch        // __exit__ popped another section's marker
    | Raised(code: int)     // an exception raised by user code

  datatype ExceptionClass = RuntimeError | AssertionError | UserException

  /** The Python class of each error: the two `assert` statements of
      `__exit__` raise AssertionError, every explicit `raise` in hub.py
      raises RuntimeError. */
  function ClassOf(e: Error): ExceptionClass
  {
    match e
    case AtomicUnderflow => AssertionError
    case AtomicMismatch => AssertionError
    case Raised(_) => UserException
    case _ => RuntimeError
  }

  /** A queued callable: an arbitrary user callable, or the `do_switch_back`
      closure made by a switch-back trigger, which switches to `target`
      passing the tuple `values`. */
  datatype Callback =
    | Call(name: nat)
    | SwitchTo(target: FiberId, values: seq<Value>)

  /** One `(callback, args)` pair of `Hub._callbacks`. */
  datatype Entry = Entry(callback: Callback, args: seq<Value>)

  /** What invoking one entry does as far as the Hub can see: the entries it
      queues through `run_callback`, in call order, and whether it then raises. */
  datatype Outcome = Outcome(enqueued: seq<Entry>, raises: bool)

  /** The callable returned by `switch_back()`, bound to the fiber that asked. */
  datatype Trigger = Trigger(target: FiberId)

  datatype WatcherKind =
    | TimerWatcher(timeout: real, repeat: real)
    | SignalWatcher(signum: int)

  /** A pyuv timer or signal handle started with a switch-back trigger as
      its callback; `id` tells apart handles created by different calls. */
  datatype Watcher = Watcher(id: nat, kind: WatcherKind, callback: Trigger)

  /** The Hub's state. `invoked` and `logged` record, in order, every entry
      the Hub has called and every callback failure it has logged. */
  datatype Hub = Hub(
    fiber: FiberId,
    parent: FiberId,
    callbacks: seq<Entry>,
    atomic: seq<Marker>,
    armed: set<Watcher>,
    nextWatcher: nat,
    stopRequests: nat,
    invoked: seq<Entry>,
    logged: seq<Entry>)

  /** Every armed watcher was created before the next fresh id. */
  predicate HubValid(h: Hub)
  {
    forall w | w in h.armed :: w.id < h.nextWatcher
  }

  /** The thread a Hub lives on: the current fiber, the parent link of every
      fiber that has one (the root fiber has none), the next fresh fiber id
      and the thread-local Hub cell. */
  datatype Thread = Thread(
    current: FiberId,
    parentOf: map<FiberId, FiberId>,
    nextFiber: FiberId,
    hub: Option<Hub>)

  predicate ThreadValid(t: Thread)
  {
    && t.current < t.nextFiber
    && (forall f | f in t.parentOf :: f < t.nextFiber)
  }

  // ---------------------------------------------------------------------
  // Construction and the thread singleton
  // ---------------------------------------------------------------------

  /** `Hub.__init__`: only the root fiber may create the Hub; the Hub is a
      new fiber whose parent is that root, with empty queues. */
  function NewHub(t: Thread): (r: Result<(Hub, Thread), Error>)
    ensures r.Err? <==> t.current in t.parentOf
    ensures r.Err? ==> r.error == HubNotInRoot
    ensures r.Ok? ==> r.value.0.parent == t.current
    ensures r.Ok? ==> r.value.0.callbacks == [] && r.value.0.atomic == [] && r.value.0.armed == {}
    ensures r.Ok? ==> r.value.0.fiber == t.nextFiber && r.value.1.nextFiber == t.nextFiber + 1
    ensures r.Ok? ==> r.value.0.nextWatcher == 0 && r.value.0.stopRequests == 0
    ensures r.Ok? ==> r.value.0.invoked == [] && r.value.0.logged == []
    ensures r.Ok? ==> r.value.1.current == t.current && r.value.1.hub == t.hub
    ensures r.Ok? ==> r.value.1.parentOf == t.parentOf[r.value.0.fiber := t.current]
    ensures r.Ok? && ThreadValid(t) ==>
              && r.value.0.fiber != t.current
              && r.value.0.fiber !in t.parentOf
              && ThreadValid(r.value.1)
  {
    if t.current in t.parentOf then Err(HubNotInRoot)
    else
      var h := Hub(t.nextFiber, t.current, [], [], {}, 0, 0, [], []);
      Ok((h, t.(parentOf := t.parentOf[t.nextFiber := t.current], nextFiber := t.nextFiber + 1)))
  }

  /** `Hub.get`: the Hub in the thread cell, created and stored on first use. */
  function Get(t: Thread): (r: Result<(Hub, Thread), Error>)
    ensures t.hub.Some? ==> r == Ok((t.hub.value, t))
    ensures t.hub.None? ==> (r.Err? <==> t.current in t.parentOf)
    ensures r.Err? ==> r.error == HubNotInRoot && t.hub.None?
    ensures r.Ok? ==> r.value.1.hub == Some(r.value.0) && r.value.1.current == t.current
    ensures r.Ok? && ThreadValid(t) && t.hub.None? ==> ThreadValid(r.value.1) && r.value.0.fiber != t.current
    ensures t.hub.None? && r.Ok? ==> NewHub(t) == Ok((r.value.0, r.value.1.(hub := t.hub)))
  {
    if t.hub.Some? then Ok((t.hub.value, t))
    else
      match NewHub(t)
      case Err(e) => Err(e)
      case Ok((h, t')) => Ok((h, t'.(hub := Some(h))))
  }

  /** Every later `Hub.get` returns the instance the first one returned and
      changes nothing. */
  lemma GetIsSingleton(t: Thread)
    requires Get(t).Ok?
    ensures Get(Get(t).value.1) == Get(t)
  {
  }

  // ---------------------------------------------------------------------
  // The callback queue
  // ---------------------------------------------------------------------

  /** `Hub.run_callback`: queue one entry at the tail and ask the loop to stop. */
  function RunCallback(h: Hub, callback: Callback, args: seq<Value>): (r: Hub)
    ensures r.callbacks == h.callbacks + [Entry(callback, args)]
    ensures r.stopRequests == h.stopRequests + 1
    ensures r.(callbacks := h.callbacks, stopRequests := h.stopRequests) == h
  {
    h.(callbacks := h.callbacks + [Entry(callback, args)], stopRequests := h.stopRequests + 1)
  }

  /** A series of `run_callback` calls, one per entry, in order. */
  function Enqueue(h: Hub, entries: seq<Entry>): (r: Hub)
    ensures r.callbacks == h.callbacks + entries
    ensures r.stopRequests == h.stopRequests + |entries|
    ensures r.(callbacks := h.callbacks, stopRequests := h.stopRequests) == h
    decreases |entries|
  {
    if entries == [] then h
    else
      var r := Enqueue(RunCallback(h, entries[0].callback, entries[0].args), entries[1..]);
      assert [entries[0]] + entries[1..] == entries;
      r
  }

  /** All entries queued by a series of invocations, in order. */
  function Flatten(outcomes: seq<Outcome>): seq<Entry>
  {
    if outcomes == [] then [] else outcomes[0].enqueued + Flatten(outcomes[1..])
  }

  /** The entries whose invocation raised, in order. */
  function Failures(entries: seq<Entry>, outcomes: seq<Outcome>): (r: seq<Entry>)
    requires |entries| == |outcomes|
  {
    if entries == [] then []
    else (if outcomes[0].raises then [entries[0]] else []) + Failures(entries[1..], outcomes[1..])
  }

  /** The first `|outcomes|` iterations of the drain loop of
      `Hub._run_callbacks`: pop the oldest entry, call it (its calls to
      `run_callback` append at the tail), and log it if it raised. The
      remaining entries keep their places ahead of everything enqueued
      during these iterations. */
  function Pass(h: Hub, outcomes: seq<Outcome>): (r: Hub)
    requires |outcomes| <= |h.callbacks|
    ensures r.invoked == h.invoked + h.callbacks[..|outcomes|]
    ensures r.callbacks == h.callbacks[|outcomes|..] + Flatten(outcomes)
    ensures r.logged == h.logged + Failures(h.callbacks[..|outcomes|], outcomes)
    ensures r.stopRequests == h.stopRequests + |Flatten(outcomes)|
    ensures r.(callbacks := h.callbacks, invoked := h.invoked, logged := h.logged,
               stopRequests := h.stopRequests) == h
    decreases |outcomes|
  {
    if outcomes == [] then h
    else
      var r := Pass(Invoke(h, outcomes[0]), outcomes[1..]);
      PassStep(h, outcomes, r);
      r
  }

  /** The inductive step of `Pass`: the effect of the first iteration
      followed by that of the remaining ones is the effect of all of them. */
  lemma {:induction false} PassStep(h: Hub, outcomes: seq<Outcome>, r: Hub)
    requires 0 < |outcomes| <= |h.callbacks|
    requires var h' := Invoke(h, outcomes[0]);
      && r.invoked == h'.invoked + h'.callbacks[..|outcomes| - 1]
      && r.callbacks == h'.callbacks[|outcomes| - 1..] + Flatten(outcomes[1..])
      && r.logged == h'.logged + Failures(h'.callbacks[..|outcomes| - 1], outcomes[1..])
      && r.stopRequests == h'.stopRequests + |Flatten(outcomes[1..])|
      && r.(callbacks := h'.callbacks, invoked := h'.invoked, logged := h'.logged,
            stopRequests := h'.stopRequests) == h'
    ensures r.invoked == h.invoked + h.callbacks[..|outcomes|]
    ensures r.callbacks == h.callbacks[|outcomes|..] + Flatten(outcomes)
    ensures r.logged == h.logged + Failures(h.callbacks[..|outcomes|], outcomes)
    ensures r.stopRequests == h.stopRequests + |Flatten(outcomes)|
    ensures r.(callbacks := h.callbacks, invoked := h.invoked, logged := h.logged,
               stopRequests := h.stopRequests) == h
  {
    var e := h.callbacks[0];
    var o := outcomes[0];
    SnapshotSlices(h.callbacks, o.enqueued, |outcomes|);
    assert Flatten(outcomes) == o.enqueued + Flatten(outcomes[1..]);
    assert Failures(h.callbacks[..|outcomes|], outcomes)
        == (if o.raises then [e] else []) + Failures(h.callbacks[1..|outcomes|], outcomes[1..]);
  }

  /** One iteration of the drain loop: pop the oldest entry, call it, and
      log it if it raised. */
  function Invoke(h: Hub, o: Outcome): (r: Hub)
    requires |h.callbacks| > 0
    ensures r.invoked == h.invoked + [h.callbacks[0]]
    ensures r.callbacks == h.callbacks[1..] + o.enqueued
    ensures r.logged == h.logged + (if o.raises then [h.callbacks[0]] else [])
    ensures r.stopRequests == h.stopRequests + |o.enqueued|
    ensures r.(callbacks := h.callbacks, invoked := h.invoked, logged := h.logged,
               stopRequests := h.stopRequests) == h
  {
    var e := h.callbacks[0];
    var popped := h.(callbacks := h.callbacks[1..], invoked := h.invoked + [e]);
    var called := Enqueue(popped, o.enqueued);
    if o.raises then called.(logged := called.logged + [e]) else called
  }

  /** How the slices of the queue move when its head is popped and `enq`
      is appended. */
  lemma SnapshotSlices(q: seq<Entry>, enq: seq<Entry>, n: nat)
    requires 0 < n <= |q|
    ensures (q[1..] + enq)[n - 1..] == q[n..] + enq
    ensures (q[1..] + enq)[..n - 1] == q[1..n]
    ensures q[..n] == [q[0]] + q[1..n]
    ensures q[..n][1..] == q[1..n]
  {
  }

  /** `Hub._run_callbacks`: one drain pass over the entries queued when it
      starts, given what each of them does when called. Exactly that
      snapshot runs, oldest first; every failure is logged once and the pass
      goes on; entries queued during the pass stay queued, in call order. */
  function RunCallbacks(h: Hub, outcomes: seq<Outcome>): (r: Hub)
    requires |outcomes| == |h.callbacks|
    ensures r.invoked == h.invoked + h.callbacks
    ensures r.callbacks == Flatten(outcomes)
    ensures r.logged == h.logged + Failures(h.callbacks, outcomes)
    ensures r.stopRequests == h.stopRequests + |r.callbacks|
    ensures r.(callbacks := h.callbacks, invoked := h.invoked, logged := h.logged,
               stopRequests := h.stopRequests) == h
  {
    assert h.callbacks[..|outcomes|] == h.callbacks;
    Pass(h, outcomes)
  }

  /** The number of invocations that raised. */
  function CountRaises(outcomes: seq<Outcome>): nat
  {
    if outcomes == [] then 0 else (if outcomes[0].raises then 1 else 0) + CountRaises(outcomes[1..])
  }

  /** One failure is logged per raising invocation, no more, and every
      raising entry is among them. */
  lemma {:induction false} FailuresCountRaises(entries: seq<Entry>, outcomes: seq<Outcome>)
    requires |entries| == |outcomes|
    ensures |Failures(entries, outcomes)| == CountRaises(outcomes)
    ensures forall i | 0 <= i < |outcomes| :: outcomes[i].raises ==> entries[i] in Failures(entries, outcomes)
    decreases |entries|
  {
    if entries != [] {
      FailuresCountRaises(entries[1..], outcomes[1..]);
      forall i | 0 <= i < |outcomes| && outcomes[i].raises
        ensures entries[i] in Failures(entries, outcomes)
      {
        if i > 0 {
          assert entries[1..][i - 1] == entries[i];
          assert outcomes[1..][i - 1] == outcomes[i];
        }
      }
    }
  }

  /** What was queued during one pass is exactly what the next pass runs. */
  lemma DeferredEntriesRunNextPass(h: Hub, first: seq<Outcome>, second: seq<Outcome>)
    requires |first| == |h.callbacks|
    requires |second| == |Flatten(first)|
    ensures RunCallbacks(RunCallbacks(h, first), second).invoked == h.invoked + h.callbacks + Flatten(first)
  {
  }

  // ---------------------------------------------------------------------
  // assert_no_switchpoints
  // ---------------------------------------------------------------------

  /** `assert_no_switchpoints.__enter__`: push this section's marker. */
  function EnterAtomic(h: Hub, m: Marker): (r: Hub)
    ensures r.atomic == h.atomic + [m]
    ensures r.(atomic := h.atomic) == h
  {
    h.(atomic := h.atomic + [m])
  }

  /** `assert_no_switchpoints.__exit__`: assert the stack is non-empty, pop
      it, then assert the popped marker is this section's. The pop happens
      before the identity check, so a mismatch leaves the stack popped. */
  function ExitAtomic(h: Hub, m: Marker): (r: Step<Hub, Error>)
    ensures |h.atomic| == 0 ==> r == Step(h, Some(AtomicUnderflow))
    ensures |h.atomic| > 0 ==> r.state == h.(atomic := h.atomic[..|h.atomic| - 1])
    ensures r.raised.None? <==> |h.atomic| > 0 && h.atomic[|h.atomic| - 1] == m
    ensures r.raised.Some? ==> ClassOf(r.raised.value) == AssertionError
  {
    if |h.atomic| == 0 then Step(h, Some(AtomicUnderflow))
    else
      var top := h.atomic[|h.atomic| - 1];
      var popped := h.(atomic := h.atomic[..|h.atomic| - 1]);
      if top == m then Step(popped, None) else Step(popped, Some(AtomicMismatch))
  }

  /** Entering nested sections, outermost first. */
  function EnterAll(h: Hub, ms: seq<Marker>): (r: Hub)
    ensures r == h.(atomic := h.atomic + ms)
    decreases |ms|
  {
    if ms == [] then h
    else
      var r := EnterAll(EnterAtomic(h, ms[0]), ms[1..]);
      assert h.atomic + [ms[0]] + ms[1..] == h.atomic + ms;
      r
  }

  /** Exiting sections in the given order, stopping at the first failure. */
  function ExitAll(h: Hub, ms: seq<Marker>): (r: Step<Hub, Error>)
    decreases |ms|
  {
    if ms == [] then Step(h, None)
    else
      var s := ExitAtomic(h, ms[0]);
      if s.raised.Some? then s else ExitAll(s.state, ms[1..])
  }

  function Reverse(ms: seq<Marker>): (r: seq<Marker>)
    ensures |r| == |ms|
    ensures forall i | 0 <= i < |ms| :: r[i] == ms[|ms| - 1 - i]
  {
    if ms == [] then [] else [ms[|ms| - 1]] + Reverse(ms[..|ms| - 1])
  }

  lemma {:induction false} ExitInReverse(h: Hub, base: seq<Marker>, ms: seq<Marker>)
    requires h.atomic == base + ms
    ensures ExitAll(h, Reverse(ms)) == Step(h.(atomic := base), None)
    decreases |ms|
  {
    if ms != [] {
      var last := ms[|ms| - 1];
      var init := ms[..|ms| - 1];
      assert Reverse(ms) == [last] + Reverse(init);
      assert h.atomic[|h.atomic| - 1] == last;
      assert h.atomic[..|h.atomic| - 1] == base + init;
      var s := ExitAtomic(h, last);
      assert s == Step(h.(atomic := base + init), None);
      assert Reverse(ms)[1..] == Reverse(init);
      ExitInReverse(s.state, base, init);
    } else {
      assert h.atomic == base;
    }
  }

  /** Nested sections exited innermost first restore the stack exactly. */
  lemma NestedSectionsRestore(h: Hub, ms: seq<Marker>)
    ensures ExitAll(EnterAll(h, ms), Reverse(ms)) == Step(h, None)
  {
    ExitInReverse(EnterAll(h, ms), h.atomic, ms);
  }

  /** Exiting any section but the innermost one is an assertion failure. */
  lemma OutOfOrderExitFails(h: Hub, ms: seq<Marker>, m: Marker)
    requires |ms| > 0 && m != ms[|ms| - 1]
    ensures ExitAtomic(EnterAll(h, ms), m).raised == Some(AtomicMismatch)
    ensures ClassOf(AtomicMismatch) == AssertionError
  {
  }

  // ---------------------------------------------------------------------
  // The switchpoint guard
  // ---------------------------------------------------------------------

  /** A function wrapped by `@switchpoint`, called in thread `t`: look up
      the Hub (creating it if need be), refuse to run from the Hub or inside
      an atomic section, otherwise call the function with the same
      arguments and return its result unchanged. */
  function Switchpoint<A, R>(t: Thread, f: A -> Result<R, Error>, args: A): (r: (Thread, Result<R, Error>))
    ensures t.hub.Some? && t.current == t.hub.value.fiber ==> r == (t, Err(SwitchpointInHub))
    ensures t.hub.Some? && t.current != t.hub.value.fiber && |t.hub.value.atomic| > 0 ==>
              r == (t, Err(SwitchpointInAtomic))
    ensures t.hub.Some? && t.current != t.hub.value.fiber && t.hub.value.atomic == [] ==>
              r == (t, f(args))
    ensures t.hub.None? && t.current in t.parentOf ==> r == (t, Err(HubNotInRoot))
    ensures t.hub.None? && t.current !in t.parentOf && ThreadValid(t) ==>
              r.1 == f(args) && r.0.hub.Some? && r.0.current == t.current
    ensures r.1 != f(args) ==> r.1.Err? && ClassOf(r.1.error) == RuntimeError
  {
    match Get(t)
    case Err(e) => (t, Err(e))
    case Ok((hub, t')) =>
      if t'.current == hub.fiber then (t', Err(SwitchpointInHub))
      else if |hub.atomic| > 0 then (t', Err(SwitchpointInAtomic))
      else (t', f(args))
  }

  /** A guarded no-op fails inside any number of open sections and runs once
      they are all closed again. */
  lemma GuardedNoOpInAtomicSections(t: Thread, ms: seq<Marker>)
    requires t.hub.Some? && t.current != t.hub.value.fiber && t.hub.value.atomic == []
    requires |ms| > 0
    ensures var inside := t.(hub := Some(EnterAll(t.hub.value, ms)));
            Switchpoint(inside, (u: ()) => Ok(u), ()).1 == Err(SwitchpointInAtomic)
    ensures var after := ExitAll(EnterAll(t.hub.value, ms), Reverse(ms)).state;
            Switchpoint(t.(hub := Some(after)), (u: ()) => Ok(u), ()).1 == Ok(())
  {
    NestedSectionsRestore(t.hub.value, ms);
  }

  // ---------------------------------------------------------------------
  // switch_back and Hub.switch
  // ---------------------------------------------------------------------

  /** `Hub.switch_back`: a trigger bound to the fiber that asked for it. */
  function SwitchBack(h: Hub, current: FiberId): (tr: Trigger)
    ensures tr.target == current
  {
    Trigger(current)
  }

  /** Calling a trigger with `args`: queue one entry that, when drained,
      switches to the trigger's fiber passing the tuple `args`. */
  function Fire(h: Hub, tr: Trigger, args: seq<Value>): (r: Hub)
    ensures r.callbacks == h.callbacks + [Entry(SwitchTo(tr.target, args), [])]
    ensures r.stopRequests == h.stopRequests + 1
    ensures r.(callbacks := h.callbacks, stopRequests := h.stopRequests) == h
  {
    RunCallback(h, SwitchTo(tr.target, args), [])
  }

  /** One call of a trigger. */
  datatype Firing = Firing(trigger: Trigger, args: seq<Value>)

  /** One switch into a suspended fiber. */
  datatype Resume = Resume(fiber: FiberId, values: seq<Value>)

  function FireAll(h: Hub, fs: seq<Firing>): (r: Hub)
    ensures r.(callbacks := h.callbacks, stopRequests := h.stopRequests) == h
    ensures |r.callbacks| == |h.callbacks| + |fs|
    ensures r.callbacks[..|h.callbacks|] == h.callbacks
    decreases |fs|
  {
    if fs == [] then h else FireAll(Fire(h, fs[0].trigger, fs[0].args), fs[1..])
  }

  /** The fiber switches a run of drained entries performs, in order. */
  function Resumes(entries: seq<Entry>): seq<Resume>
  {
    if entries == [] then []
    else
      (if entries[0].callback.SwitchTo?
       then [Resume(entries[0].callback.target, entries[0].callback.values)]
       else [])
      + Resumes(entries[1..])
  }

  /** The switches a series of trigger calls asks for, in call order. */
  function Requested(fs: seq<Firing>): (r: seq<Resume>)
    ensures |r| == |fs|
    ensures forall i | 0 <= i < |fs| :: r[i] == Resume(fs[i].trigger.target, fs[i].args)
  {
    if fs == [] then [] else [Resume(fs[0].trigger.target, fs[0].args)] + Requested(fs[1..])
  }

  lemma {:induction false} ResumesAppend(a: seq<Entry>, b: seq<Entry>)
    ensures Resumes(a + b) == Resumes(a) + Resumes(b)
    decreases |a|
  {
    if a != [] {
      assert (a + b)[0] == a[0];
      assert (a + b)[1..] == a[1..] + b;
      ResumesAppend(a[1..], b);
    } else {
      assert a + b == b;
    }
  }

  lemma {:induction false} FireAllQueuesResumes(h: Hub, fs: seq<Firing>)
    ensures Resumes(FireAll(h, fs).callbacks) == Resumes(h.callbacks) + Requested(fs)
    decreases |fs|
  {
    if fs != [] {
      var h1 := Fire(h, fs[0].trigger, fs[0].args);
      FireAllQueuesResumes(h1, fs[1..]);
      var e := Entry(SwitchTo(fs[0].trigger.target, fs[0].args), []);
      ResumesAppend(h.callbacks, [e]);
      assert Resumes([e]) == [Resume(fs[0].trigger.target, fs[0].args)];
      assert Requested(fs) == [Resume(fs[0].trigger.target, fs[0].args)] + Requested(fs[1..]);
    }
  }

  /** Fibers are resumed in the order their triggers were called, after
      whatever switches were already queued, whatever the triggers'
      creation order. */
  lemma ResumesFollowTriggerOrder(h: Hub, fs: seq<Firing>, outcomes: seq<Outcome>)
    requires |outcomes| == |h.callbacks| + |fs|
    ensures var r := RunCallbacks(FireAll(h, fs), outcomes);
            Resumes(r.invoked) == Resumes(h.invoked) + Resumes(h.callbacks) + Requested(fs)
  {
    var h1 := FireAll(h, fs);
    FireAllQueuesResumes(h, fs);
    ResumesAppend(h.invoked, h1.callbacks);
  }

  /** How a suspended fiber is resumed: with the tuple passed to its
      `switch`, or by an exception thrown into it. */
  datatype Resumption = ResumedWith(values: seq<Value>) | ResumedRaising(error: Error)

  /** The Hub after a `Hub.switch` call returns or raises, the watchers that
      call armed, and what it returned. */
  datatype Suspension = Suspension(hub: Hub, armed: set<Watcher>, result: Result<seq<Value>, Error>)

  /** The watchers `Hub.switch` starts before suspending: a one-shot timer
      when a timeout is given, a SIGINT watcher when `interrupt` is set,
      both with a trigger for the caller as callback. */
  function Arm(h: Hub, current: FiberId, timeout: Option<real>, interrupt: bool): (r: (Hub, set<Watcher>))
    ensures r.0 == h.(armed := h.armed + r.1, nextWatcher := r.0.nextWatcher)
    ensures |r.1| == (if timeout.Some? then 1 else 0) + (if interrupt then 1 else 0)
    ensures forall w | w in r.1 :: w.callback == Trigger(current) && h.nextWatcher <= w.id < r.0.nextWatcher
    ensures forall w | w in r.1 :: w.kind.TimerWatcher? ==> timeout == Some(w.kind.timeout) && w.kind.repeat == 0.0
    ensures forall w | w in r.1 :: w.kind.SignalWatcher? ==> interrupt && w.kind.signum == SIGINT
    ensures (exists w | w in r.1 :: w.kind.TimerWatcher?) <==> timeout.Some?
    ensures (exists w | w in r.1 :: w.kind.SignalWatcher?) <==> interrupt
    ensures HubValid(h) ==> HubValid(r.0) && r.1 !! h.armed
  {
    var timers := if timeout.Some? then {Watcher(h.nextWatcher, TimerWatcher(timeout.value, 0.0), Trigger(current))} else {};
    var signals := if interrupt then {Watcher(h.nextWatcher + 1, SignalWatcher(SIGINT), Trigger(current))} else {};
    (h.(armed := h.armed + (timers + signals), nextWatcher := h.nextWatcher + 2), timers + signals)
  }

  /** `Hub.switch(timeout, interrupt)` called by fiber `current`, which is
      later resumed as `resume` says. From the Hub it raises and arms
      nothing. Otherwise it arms the requested watchers, suspends, and on a
      normal resumption closes what it armed and returns the resume values;
      there is no try/finally, so a raising resumption leaves them armed. */
  function Switch(h: Hub, current: FiberId, timeout: Option<real>, interrupt: bool, resume: Resumption): (r: Suspension)
    ensures current == h.fiber ==> r == Suspension(h, {}, Err(SwitchFromHub))
    ensures current != h.fiber ==>
              && |r.armed| == (if timeout.Some? then 1 else 0) + (if interrupt then 1 else 0)
              && (forall w | w in r.armed :: w.callback == Trigger(current) && h.nextWatcher <= w.id)
              && (forall w | w in r.armed :: w.kind.TimerWatcher? ==> timeout == Some(w.kind.timeout))
              && (forall w | w in r.armed :: w.kind.SignalWatcher? ==> interrupt && w.kind.signum == SIGINT)
              && ((exists w | w in r.armed :: w.kind.TimerWatcher?) <==> timeout.Some?)
              && ((exists w | w in r.armed :: w.kind.SignalWatcher?) <==> interrupt)
    ensures current != h.fiber && resume.ResumedWith? ==>
              r.result == Ok(resume.values) && r.hub.armed == h.armed - r.armed
    ensures current != h.fiber && resume.ResumedRaising? ==>
              r.result == Err(resume.error) && r.hub.armed == h.armed + r.armed
    ensures HubValid(h) && resume.ResumedWith? ==> r.hub.armed == h.armed
    ensures HubValid(h) ==> HubValid(r.hub)
    ensures r.hub.(armed := h.armed, nextWatcher := h.nextWatcher) == h
  {
    if current == h.fiber then Suspension(h, {}, Err(SwitchFromHub))
    else
      var (armedHub, mine) := Arm(h, current, timeout, interrupt);
      match resume
      case ResumedWith(values) => Suspension(armedHub.(armed := armedHub.armed - mine), mine, Ok(values))
      case ResumedRaising(e) => Suspension(armedHub, mine, Err(e))
  }

  // ---------------------------------------------------------------------
  // Hub.run
  // ---------------------------------------------------------------------

  /** One iteration of the loop in `Hub.run`: the Hub's state while the
      reactor is polled, its state after the iteration, and the fiber it
      switches to (its parent) or None when it loops again. */
  datatype Iteration = Iteration(polling: Hub, hub: Hub, next: Option<FiberId>)

  /** One iteration of `Hub.run`, entered by fiber `current`: drain the
      queue (`outcomes` says what each entry does), poll the reactor once
      inside an atomic section (`polled` is what the reactor's callbacks
      queue, `active` whether it still has active handles), then return to
      the parent when the loop is idle and nothing is queued. */
  function RunIteration(h: Hub, current: FiberId, outcomes: seq<Outcome>, marker: Marker,
                        polled: seq<Entry>, active: bool): (r: Result<Iteration, Error>)
    requires |outcomes| == |h.callbacks|
    ensures r.Err? <==> current != h.fiber
    ensures r.Err? ==> r.error == RunNotInHub
    ensures r.Ok? ==> r.value.polling.atomic == h.atomic + [marker]
    ensures r.Ok? ==> r.value.polling.invoked == h.invoked + h.callbacks
    ensures r.Ok? ==> r.value.hub.atomic == h.atomic
    ensures r.Ok? ==> r.value.hub.invoked == h.invoked + h.callbacks
    ensures r.Ok? ==> r.value.hub.callbacks == Flatten(outcomes) + polled
    ensures r.Ok? ==> (r.value.next.Some? <==> !active && Flatten(outcomes) + polled == [])
    ensures r.Ok? && r.value.next.Some? ==> r.value.next.value == h.parent
    ensures r.Ok? ==> r.value.hub.logged == h.logged + Failures(h.callbacks, outcomes)
    ensures r.Ok? ==> r.value.hub.stopRequests == h.stopRequests + |Flatten(outcomes)| + |polled|
    ensures r.Ok? ==> r.value.hub.(callbacks := h.callbacks, atomic := h.atomic, invoked := h.invoked,
                                   logged := h.logged, stopRequests := h.stopRequests) == h
  {
    if current != h.fiber then Err(RunNotInHub)
    else
      var drained := RunCallbacks(h, outcomes);
      var polling := EnterAtomic(drained, marker);
      var exited := ExitAtomic(Enqueue(polling, polled), marker);
      var h' := exited.state;
      Ok(Iteration(polling, h', if !active && h'.callbacks == [] then Some(h.parent) else None))
  }

  /** While the reactor is polled no switchpoint can run, from any fiber. */
  lemma NoSwitchpointWhilePolling<R>(h: Hub, outcomes: seq<Outcome>, marker: Marker,
                                     polled: seq<Entry>, active: bool, t: Thread,
                                     f: (()) -> Result<R, Error>)
    requires |outcomes| == |h.callbacks|
    requires t.hub == Some(RunIteration(h, h.fiber, outcomes, marker, polled, active).value.polling)
    ensures Switchpoint(t, f, ()).1.Err?
  {
  }

  /** A Hub entered with an idle reactor and an empty queue returns to its
      parent on the first pass, with its atomic stack as it found it. */
  lemma IdleHubReturnsToParent(h: Hub, marker: Marker)
    requires h.callbacks == []
    ensures RunIteration(h, h.fiber, [], marker, [], false).Ok?
    ensures RunIteration(h, h.fiber, [], marker, [], false).value.next == Some(h.parent)
    ensures RunIteration(h, h.fiber, [], marker, [], false).value.hub.atomic == h.atomic
  {
  }
}
